=== FILE: README.md ===
# Cellular automata: a verified model

A Dafny model of three small cellular-automaton engines, each a pure function over finite integer lattices:

- **The 1D Wolfram automaton** (`1D-Wolfram/wolframCA_functions.py`). It covers:
  - the centred initial state;
  - the rule table, built from a rule number's binary digits;
  - periodic or fixed (`fix-L-R`) boundary padding;
  - the synchronous time-stepping loop, which finds each cell's neighbourhood by a linear scan of the table.
- **The 2D periodic boundary expander** `f_expand_array_for_bc`. The same function appears in both 2D files.
- **2D majority-vote clustering** (`2D-clustering-of-states/helpers_clustering_of_states.py`). It covers:
  - the fractional initialiser, which gives every cell a state id;
  - the Moore-neighbourhood majority step. Ties go to the smallest id.
- **2D nucleation and growth** (`2D-nuclei-growth/helpers_nuclei_growth.py`). It covers:
  - seeds stamped as squares or discs, around the lattice centre or around supplied centres;
  - the threshold growth step, in which a newly solid cell takes one of the most frequent grain ids around it.

Modules:

| module | file | contents |
|---|---|---|
| `Wrappers` | `wrappers.dfy` | `Option` and `Result`, which stand for the exceptions the source raises |
| `Numeric` | `numeric.dfy` | powers of two, bits, `np.binary_repr`, sums, Python's `round`, facts about modulo |
| `Text` | `text.dfy` | ASCII `lower`, substring test, `split`, decimal digits |
| `Lattice` | `lattice.dfy` | 1D periodic padding, the 2D expansion (corrected and as written), neighbourhood windows |
| `Counting` | `counting.dfy` | `np.unique`, `np.argmax`, and the most frequent nonzero ids of a window |
| `Wolfram` | `wolfram.dfy` | the 1D automaton |
| `Clustering` | `clustering.dfy` | the initialiser and the majority-vote automaton |
| `Nuclei` | `nuclei.dfy` | seed stamping and the growth automaton |

Conventions:

- **Randomness.** Every random choice is a parameter, and no contract assumes anything about its values. This covers:
  - the cells `np.random.choice` draws in the initialiser;
  - the seed centres of a random placement;
  - the grain picked among tied ids.
- **Lattices** are `seq<seq<int>>` in row-major order.
- **Exceptions** the source raises become an `Err` or `None` result.

The evolution functions use the torus expansion (`Lattice.ExpandPeriodic`). The source's expansion differs from the torus in one block (see Findings). `Lattice.ExpandAsWritten` models it exactly as written, and a lemma locates the difference.

## Model

Source paths are relative to the repository root.

| member | source | states |
|---|---|---|
| Numeric.BinaryRepr | 1D-Wolfram/wolframCA_functions.py:52 | `np.binary_repr(n, width)` has exactly `width` digits, each 0 or 1 |
| Numeric.ValueOfBinaryRepr | 1D-Wolfram/wolframCA_functions.py:52 | reading the digits back, most significant first, gives the number: the representation is invertible |
| Numeric.BinaryReprOfValue | 1D-Wolfram/wolframCA_functions.py:56-58 | every binary string is the representation of its own value, which is below `2^len`; the representation is onto |
| Numeric.ValueInjective | 1D-Wolfram/wolframCA_functions.py:56-58 | two binary strings of one length with the same value are equal |
| Numeric.BinaryReprDigit | 1D-Wolfram/wolframCA_functions.py:52 | digit `i` of the representation is bit `width-1-i` of the number |
| Numeric.BinaryReprOfZero | 1D-Wolfram/wolframCA_functions.py:52 | every digit of the representation of 0 is 0 |
| Numeric.BitOfAllOnes | 1D-Wolfram/wolframCA_functions.py:52 | all `k` low bits of `2^k - 1` are 1 |
| Numeric.RoundHalfEven | 2D-clustering-of-states/helpers_clustering_of_states.py:26 | Python's `round`: the result is within 1/2 of the argument, and an exact tie goes to the even neighbour |
| Numeric.PositiveBinarySumHasOne | 2D-nuclei-growth/helpers_nuclei_growth.py:218-223 | a 0/1 window with a positive sum holds a 1 |
| Text.Split | 1D-Wolfram/wolframCA_functions.py:104 | `str.split` gives at least one field, and no field holds the separator |
| Text.JoinSplit | 1D-Wolfram/wolframCA_functions.py:104 | joining the fields with the separator restores the string |
| Text.SplitAfterField | 1D-Wolfram/wolframCA_functions.py:104 | a separator-free prefix followed by the separator becomes the first field |
| Text.SplitNoSeparator | 1D-Wolfram/wolframCA_functions.py:104 | a string without the separator is its own single field |
| Text.ShowNat | 1D-Wolfram/wolframCA_functions.py:104 | a number's decimal spelling is a non-empty digit string |
| Text.ParseShowNat | 1D-Wolfram/wolframCA_functions.py:104 | `int(str(n)) == n`: parsing inverts printing |
| Lattice.PeriodicPad | 1D-Wolfram/wolframCA_functions.py:99-101 | periodic padding of order `k` has `N + 2k` cells |
| Lattice.PeriodicPadTorus | 1D-Wolfram/wolframCA_functions.py:99-101 | padded cell `j` is source cell `(j-k) mod N`: the padding reads the state as a ring |
| Lattice.ExpandPeriodic | 2D-clustering-of-states/helpers_clustering_of_states.py:55-56 | the corrected expansion has shape `(H+2k, W+2k)` |
| Lattice.ExpandTorus | 2D-clustering-of-states/helpers_clustering_of_states.py:55-68 | corrected expansion: `bc[r][c] == a[(r-k) mod H][(c-k) mod W]` everywhere, corners included |
| Lattice.ExpandValues | 2D-nuclei-growth/helpers_nuclei_growth.py:98-111 | every value of the expansion occurs in the source lattice |
| Lattice.AsWrittenRow | 2D-nuclei-growth/helpers_nuclei_growth.py:103-111 | one row of the expansion as written has `W + 2k` cells |
| Lattice.ExpandAsWritten | 2D-clustering-of-states/helpers_clustering_of_states.py:59-68 | the expansion as written has shape `(H+2k, W+2k)` |
| Lattice.ExpandAsWrittenBlocks | 2D-nuclei-growth/helpers_nuclei_growth.py:103-111 | one clause per block assignment: each of the nine blocks holds the source block its line names |
| Lattice.ExpandAsWrittenVersusTorus | 2D-clustering-of-states/helpers_clustering_of_states.py:60-68 | as written, the expansion equals the torus everywhere except the right block of the middle rows. There it reads column `c - 2k` instead of `c - W - k` |
| Lattice.ExpandAsWrittenValues | 2D-clustering-of-states/helpers_clustering_of_states.py:59-68 | every cell of the expansion as written holds a value of the lattice |
| Lattice.ExpandAsWrittenIsNotTorus | 2D-clustering-of-states/helpers_clustering_of_states.py:64 | a 3-by-3 lattice on which the written expansion and the torus differ |
| Lattice.Window | 2D-clustering-of-states/helpers_clustering_of_states.py:162 | the Moore window of order `k` has `(2k+1)^2` cells |
| Lattice.WindowTorus | 2D-nuclei-growth/helpers_nuclei_growth.py:213-214 | window entry `p` of cell `(r, c)` is the torus cell `p / (2k+1) - k` rows and `p % (2k+1) - k` columns away |
| Lattice.WindowValues | 2D-nuclei-growth/helpers_nuclei_growth.py:213-214 | every value in a window occurs in the lattice |
| Counting.Insert | 2D-clustering-of-states/helpers_clustering_of_states.py:141 | inserting into an ascending list of distinct values keeps it ascending, and its values become the old ones plus the new one |
| Counting.Unique | 2D-clustering-of-states/helpers_clustering_of_states.py:141 | `np.unique`: strictly ascending, with exactly the input's values |
| Counting.ArgMax | 2D-clustering-of-states/helpers_clustering_of_states.py:167 | `np.argmax`: an index of a maximum with every earlier entry strictly smaller, i.e. the first maximum |
| Counting.NonZero | 2D-nuclei-growth/helpers_nuclei_growth.py:223 | removing the zeros keeps every nonzero value's count and leaves no 0 |
| Counting.WithCount | 2D-nuclei-growth/helpers_nuclei_growth.py:226 | the ids whose count is `n`, still ascending, and no others |
| Counting.MostFrequent | 2D-nuclei-growth/helpers_nuclei_growth.py:223-226 | the tied list holds exactly the nonzero ids with the highest count, ascending; it is empty exactly when the window holds no nonzero id |
| Counting.MostFrequentSpec | 2D-nuclei-growth/helpers_nuclei_growth.py:223-226 | both directions: the ids with the top count are the most frequent nonzero ids |
| Counting.TiedIsMostFrequent | 2D-nuclei-growth/helpers_nuclei_growth.py:226 | an id with the top count is a most frequent nonzero id |
| Counting.MostFrequentIsTied | 2D-nuclei-growth/helpers_nuclei_growth.py:226 | a most frequent nonzero id has the top count |
| Wolfram.SumOfSingleOne | 1D-Wolfram/wolframCA_functions.py:27-28 | a sequence that is 1 at one index and 0 elsewhere sums to 1 |
| Wolfram.CentredInit | 1D-Wolfram/wolframCA_functions.py:26-28 | the centred state is defined exactly for sizes of at least 1. It has `size` binary cells summing to 1, and the 1 is at `size / 2` |
| Wolfram.BuildRuleTable | 1D-Wolfram/wolframCA_functions.py:48-60 | the table has `2^nbSize` rows and outputs; the outputs are binary and read back as the rule number |
| Wolfram.TableInputs | 1D-Wolfram/wolframCA_functions.py:56-58 | input row `i` is a binary string of length `nbSize` with value `2^nbSize - 1 - i` |
| Wolfram.RuleTableEnumerates | 1D-Wolfram/wolframCA_functions.py:56-58 | every binary window of the table's width matches exactly one row, row `2^nbSize - 1 - value` |
| Wolfram.Scan | 1D-Wolfram/wolframCA_functions.py:114-117 | the scan yields the output of the last matching row, or the default 0 when no row matches |
| Wolfram.Lookup | 1D-Wolfram/wolframCA_functions.py:109-117 | a looked-up cell is 0 or one of the table's outputs |
| Wolfram.LookupBinaryWindow | 1D-Wolfram/wolframCA_functions.py:111-117 | for a binary window, the new cell is bit `value(w)` of the rule number |
| Wolfram.LookupUnmatched | 1D-Wolfram/wolframCA_functions.py:103-117 | a window that is not binary, or has the wrong length, matches no row and yields 0 |
| Wolfram.Pad | 1D-Wolfram/wolframCA_functions.py:98-107 | the padded state has `N + 2k` cells; fixed padding is `k` copies of `L`, the state, then `k` copies of `R` |
| Wolfram.PadBinary | 1D-Wolfram/wolframCA_functions.py:98-107 | a binary state with a binary boundary pads to a binary sequence |
| Wolfram.Step | 1D-Wolfram/wolframCA_functions.py:109-119 | a step keeps the state's length; every new cell is 0 or a table output |
| Wolfram.StepPeriodicNeighbourhood | 1D-Wolfram/wolframCA_functions.py:98-112 | under periodic boundaries the window of cell `i` is the ring cells `i-k .. i+k` modulo `N` |
| Wolfram.StepIsRuleBit | 1D-Wolfram/wolframCA_functions.py:109-119 | with an odd neighbourhood and binary state and boundary, each new cell is the rule's bit at its window's value |
| Wolfram.Evolve | 1D-Wolfram/wolframCA_functions.py:90-120 | `steps + 1` snapshots of the initial length; element 0 is the initial state and each later one is a step from its predecessor |
| Wolfram.EvolveWolfram | 1D-Wolfram/wolframCA_functions.py:86-122 | `f_evolve_WolframCA` from a given state returns `steps + 1` snapshots of its length, the first being the state |
| Wolfram.EvolveWolframStep | 1D-Wolfram/wolframCA_functions.py:95-120 | snapshot `t` is one step from snapshot `t - 1` |
| Wolfram.SnapshotsAreBinary | 1D-Wolfram/wolframCA_functions.py:109-117 | every snapshot after the first is binary, whatever the boundary values |
| Wolfram.RuleZeroClears | 1D-Wolfram/wolframCA_functions.py:111-117 | under rule 0 every cell of every later snapshot is 0 |
| Wolfram.RuleAllOnesFills | 1D-Wolfram/wolframCA_functions.py:111-117 | under rule `2^(2^nbSize) - 1`, with an odd neighbourhood and a binary state and boundary, every cell of every later snapshot is 1 |
| Wolfram.StepUnderAllOnes | 1D-Wolfram/wolframCA_functions.py:111-117 | one step under the all-ones rule sets every cell |
| Wolfram.AllOnesBit | 1D-Wolfram/wolframCA_functions.py:52 | every configuration of the all-ones rule has output 1 |
| Wolfram.EvenNeighbourhoodClears | 1D-Wolfram/wolframCA_functions.py:87-117 | an even neighbourhood size truncates to windows one cell short of the rows, so every later snapshot is all 0 |
| Wolfram.EvenStepClears | 1D-Wolfram/wolframCA_functions.py:111-117 | one step with an even neighbourhood size yields 0 at every cell |
| Wolfram.OrderOfEven | 1D-Wolfram/wolframCA_functions.py:87 | `int((nb_size - 1) / 2)` of an even size gives windows of `nb_size - 1` cells |
| Wolfram.Rule110Outputs | 1D-Wolfram/wolframCA_functions.py:50-52 | the documented example: rule 110 gives the output column `0 1 1 0 1 1 1 0` |
| Wolfram.Repr110 | 1D-Wolfram/wolframCA_functions.py:51-52 | the eight-digit binary of 110 is `01101110` |
| Wolfram.Rule90CentredStep | 1D-Wolfram/wolframCA_functions.py:89-120 | from the centred 7-cell state, rule 90 with periodic boundaries gives `0 0 1 0 1 0 0` after one step |
| Wolfram.Rule90Step | 1D-Wolfram/wolframCA_functions.py:109-119 | one periodic rule-90 step of the centred 7-cell state |
| Wolfram.RingXor | 1D-Wolfram/wolframCA_functions.py:111-117 | the reference map, each cell replaced by the XOR of its ring neighbours, keeps the length |
| Wolfram.Rule90IsRingXor | 1D-Wolfram/wolframCA_functions.py:109-119 | a periodic rule-90 step on any binary ring equals the reference XOR map |
| Wolfram.CentredRingXor | 1D-Wolfram/wolframCA_functions.py:26-28 | the XOR map of the centred 7-cell state is `0 0 1 0 1 0 0` |
| Wolfram.Rule90Valid | 1D-Wolfram/wolframCA_functions.py:48-52 | 90 fits the 8-output table of a 3-cell neighbourhood |
| Wolfram.Rule90IsXor | 1D-Wolfram/wolframCA_functions.py:111-117 | rule 90 maps a binary 3-cell window to the XOR of its outer cells |
| Wolfram.Rule90Bits | 1D-Wolfram/wolframCA_functions.py:52 | the bits of 90 are set exactly at configurations 1, 3, 4 and 6 |
| Wolfram.RingWindow | 1D-Wolfram/wolframCA_functions.py:99-101 | the order-1 periodic window of cell `i` is binary, with ring cells `i-1` and `i+1` at its ends |
| Wolfram.Rule90WindowIsXor | 1D-Wolfram/wolframCA_functions.py:111-117 | the padded rule-90 window of cell `i` maps to the XOR of its ring neighbours |
| Wolfram.Rule90StepIsXor | 1D-Wolfram/wolframCA_functions.py:109-119 | a periodic rule-90 step sets cell `i` to the XOR of its ring neighbours |
| Wolfram.ValueOfThree | 1D-Wolfram/wolframCA_functions.py:58 | a 3-cell window reads as `4a + 2b + c` |
| Wolfram.ParseBoundary | 1D-Wolfram/wolframCA_functions.py:98-107 | the result is periodic exactly when the string is `periodic` or `p` in some letter case; a string containing `fix` or `Fix` whose `-`-separated fields 1 and 2 are decimal numbers is the fixed boundary with those values; a fixed result needs `fix` or `Fix` in the string and two numeric fields 1 and 2, so a `fix` string with fewer than three fields (IndexError) or a non-numeric field 1 or 2 (ValueError) gives `None` |
| Wolfram.PeriodicSpellingHasNoFix | 1D-Wolfram/wolframCA_functions.py:98-103 | no letter-case spelling of `periodic` or `p` contains `fix` or `Fix`, so the fixed-boundary test never overrides it |
| Wolfram.FieldsOfFixed | 1D-Wolfram/wolframCA_functions.py:104 | the `-`-separated fields 1 and 2 of `head-L-R`, optionally followed by `-` and more, are `L` and `R` |
| Wolfram.ParseFixedFields | 1D-Wolfram/wolframCA_functions.py:103-104 | a `fix` string whose fields 1 and 2 are the decimal spellings of `L` and `R` reads as `Fixed(L, R)` |
| Wolfram.ParseFixedSpelling | 1D-Wolfram/wolframCA_functions.py:103-104 | every spelling `head-L-R[-…]` with `fix` or `Fix` in `head` reads as the fixed boundary `(L, R)` |
| Wolfram.ParseFormatBoundary | 1D-Wolfram/wolframCA_functions.py:98-104 | parsing inverts formatting: `p` and every `fix-L-R` read back as the boundary they spell |
| Clustering.FlattenValues | 2D-clustering-of-states/helpers_clustering_of_states.py:141 | flattening keeps exactly the lattice's values, in both directions |
| Clustering.StateIds | 2D-clustering-of-states/helpers_clustering_of_states.py:141 | `np.unique` of the lattice: strictly ascending, and a value is listed iff some cell holds it |
| Clustering.Vote | 2D-clustering-of-states/helpers_clustering_of_states.py:164-167 | the vote is an id with the highest count in the window, and no smaller id ties with it |
| Clustering.MajorityUnique | 2D-clustering-of-states/helpers_clustering_of_states.py:164-167 | at most one id meets the majority condition |
| Clustering.VoteIff | 2D-clustering-of-states/helpers_clustering_of_states.py:164-167 | the vote picks `x` iff `x` meets the majority condition (both directions) |
| Clustering.TorusNeighbourhood | 2D-clustering-of-states/helpers_clustering_of_states.py:162 | the reference neighbourhood on the torus has `(2k+1)^2` cells |
| Clustering.WindowIsTorusNeighbourhood | 2D-clustering-of-states/helpers_clustering_of_states.py:152-162 | the window sliced from the expanded lattice equals the torus neighbourhood |
| Clustering.MajorityStep | 2D-clustering-of-states/helpers_clustering_of_states.py:150-169 | a step keeps the lattice's shape |
| Clustering.MajorityStepCell | 2D-clustering-of-states/helpers_clustering_of_states.py:162-167 | each new cell is the majority of its torus neighbourhood and one of the state ids |
| Clustering.EvolveWith | 2D-clustering-of-states/helpers_clustering_of_states.py:143-171 | `steps + 1` snapshots of the initial shape; element 0 is the initial lattice and each later one is a step from its predecessor |
| Clustering.EvolveMajority | 2D-clustering-of-states/helpers_clustering_of_states.py:139-174 | `f_evolve_sys` returns `steps + 1` lattices of the initial shape, the first being the initial lattice |
| Clustering.MajorityClosed | 2D-clustering-of-states/helpers_clustering_of_states.py:141-167 | every cell of every snapshot holds a value of the initial lattice: the state set never grows |
| Clustering.UniformStep | 2D-clustering-of-states/helpers_clustering_of_states.py:162-167 | a step maps a uniform lattice to itself |
| Clustering.UniformCell | 2D-clustering-of-states/helpers_clustering_of_states.py:162-167 | each cell of a uniform lattice's step keeps the lattice's value |
| Clustering.UniformFixedPoint | 2D-clustering-of-states/helpers_clustering_of_states.py:141-171 | a uniform lattice is a fixed point: every snapshot equals it |
| Clustering.UniformSnapshots | 2D-clustering-of-states/helpers_clustering_of_states.py:146-171 | with any state ids that include the value, every snapshot of a uniform lattice equals it |
| Clustering.Share | 2D-clustering-of-states/helpers_clustering_of_states.py:26 | `int(round(f * n))` lies within 1/2 of `f * n` |
| Clustering.Rounded | 2D-clustering-of-states/helpers_clustering_of_states.py:26 | one share per fraction, within 1/2 of the fraction times the unassigned cells, an exact tie going to the even neighbour |
| Clustering.SumSnoc | 2D-clustering-of-states/helpers_clustering_of_states.py:27 | appending a count adds it to the total |
| Clustering.RoundedCounts | 2D-clustering-of-states/helpers_clustering_of_states.py:26-27 | the counts as written: one per state, summing to the unassigned cells, led by the rounded shares |
| Clustering.ClampShares | 2D-clustering-of-states/helpers_clustering_of_states.py:26-27 | corrected counts: one more than the shares, none negative, summing to the unassigned cells |
| Clustering.ClampedAgrees | 2D-clustering-of-states/helpers_clustering_of_states.py:26-27 | non-negative shares that fit are left unchanged by the clamp, and the last count is the remainder |
| Clustering.PassCounts | 2D-clustering-of-states/helpers_clustering_of_states.py:25-27 | a pass has one count per state, summing to the unassigned cells; corrected counts are non-negative |
| Clustering.PassCountsOfZero | 2D-clustering-of-states/helpers_clustering_of_states.py:24-27 | with no unassigned cell every count is 0 under either policy |
| Clustering.Zeros | 2D-clustering-of-states/helpers_clustering_of_states.py:31 | `np.where(cells == 0)[0]` lists in-range positions of unassigned cells, one per unassigned cell, and misses none |
| Clustering.AssignAll | 2D-clustering-of-states/helpers_clustering_of_states.py:32 | the listed positions get the id and no other cell changes; a nonzero id reduces the unassigned count by at most the number of positions |
| Clustering.AssignState | 2D-clustering-of-states/helpers_clustering_of_states.py:31-32 | a turn succeeds iff the count is non-negative and, if positive, the pool is non-empty; it then changes only unassigned cells, to the state's id |
| Clustering.AssignStateCount | 2D-clustering-of-states/helpers_clustering_of_states.py:31-32 | a successful turn assigns at most `count` cells, and at least one when `count > 0` |
| Clustering.AssignStates | 2D-clustering-of-states/helpers_clustering_of_states.py:30-32 | the turns of a pass change only unassigned cells, to ids in range. They never increase the unassigned count, decrease it if some count is positive, and succeed when the counts are non-negative and fit |
| Clustering.PositiveSumHasPositive | 2D-clustering-of-states/helpers_clustering_of_states.py:27 | counts with a positive total include a positive count |
| Clustering.InitPass | 2D-clustering-of-states/helpers_clustering_of_states.py:25-32 | a pass fills only zeros with ids 1..S. It succeeds iff every count is non-negative and, as written, there is at least one fraction: with none, the last count `n - np.sum([])` is a float and `np.random.choice` raises TypeError. The corrected counts always succeed. The unassigned count strictly drops while positive |
| Clustering.FillFrom | 2D-clustering-of-states/helpers_clustering_of_states.py:21-32 | the `while` loop, with its test on the count from the previous pass, ends with no unassigned cell having changed only zeros. With corrected counts it always succeeds |
| Clustering.Reshape | 2D-clustering-of-states/helpers_clustering_of_states.py:35 | `reshape` gives `h` rows of `w` cells |
| Clustering.FlattenReshape | 2D-clustering-of-states/helpers_clustering_of_states.py:35 | flattening the reshaped lattice gives the cells back |
| Clustering.ReshapeIndex | 2D-clustering-of-states/helpers_clustering_of_states.py:35 | cell `(r, c)` of the reshaped lattice is flat cell `r*w + c` |
| Clustering.Unassigned | 2D-clustering-of-states/helpers_clustering_of_states.py:19-21 | `np.zeros(n)` has `n` cells, all unassigned |
| Clustering.Initialize | 2D-clustering-of-states/helpers_clustering_of_states.py:17-38 | a returned lattice has the requested shape with every cell in `[1, n_states]`; as written, no fractions on a lattice with a cell fail with a float count; with corrected counts initialisation always returns |
| Clustering.SingleStateAsWrittenFails | 2D-clustering-of-states/helpers_clustering_of_states.py:26-31 | as written, one state with an empty fraction list fails on any lattice with a cell, because the last count is a float |
| Clustering.SingleStateFills | 2D-clustering-of-states/helpers_clustering_of_states.py:10-11 | with corrected counts, one state with an empty fraction list fills every cell with state 1 |
| Clustering.FilledCells | 2D-clustering-of-states/helpers_clustering_of_states.py:24-35 | once no cell is unassigned, every reshaped cell holds an id from 1 to `n_states` |
| Clustering.ClampedMatchesWhenValid | 2D-clustering-of-states/helpers_clustering_of_states.py:26-27 | whenever the source's counts are all non-negative, the corrected counts equal them |
| Clustering.RoundedCountsNegative | 2D-clustering-of-states/helpers_clustering_of_states.py:26-27 | fractions `0.3, 0.3, 0.3` over 5 cells give the counts `2, 2, 2, -1` |
| Clustering.InitializeAsWrittenFails | 2D-clustering-of-states/helpers_clustering_of_states.py:26-31 | initialising a 1-by-5 lattice with those fractions fails, as written, whatever the draws |
| Nuclei.Zeros | 2D-nuclei-growth/helpers_nuclei_growth.py:27-28 | `np.zeros(sys_size)` is an `h`-by-`w` lattice of zeros |
| Nuclei.ParsePlacement | 2D-nuclei-growth/helpers_nuclei_growth.py:33-36 | centred iff `pos.lower()` is `c`, `centre` or `center`; random iff it is `r` or `random` |
| Nuclei.ParseShape | 2D-nuclei-growth/helpers_nuclei_growth.py:56-66 | square iff `shape.lower()` is `s`, `sq` or `square`; circle iff it is `c` or `circle` |
| Nuclei.SeedCount | 2D-nuclei-growth/helpers_nuclei_growth.py:24-25 | `pos == "c"` forces one seed, and a non-centred placement keeps the requested count; the corrected policy forces one seed for every centred spelling |
| Nuclei.ExactSpellingKeepsCount | 2D-nuclei-growth/helpers_nuclei_growth.py:24-25 | as written, a centred spelling other than `c` keeps the requested count, where the corrected policy gives 1 |
| Nuclei.SliceBound | 2D-nuclei-growth/helpers_nuclei_growth.py:59-64 | a normalised slice bound lies in `[0, n]` |
| Nuclei.Stamp | 2D-nuclei-growth/helpers_nuclei_growth.py:56-78 | stamping keeps both lattices' shape |
| Nuclei.Plant | 2D-nuclei-growth/helpers_nuclei_growth.py:56-78 | planting `n` seeds succeeds iff there are `n` centres and, for discs, every disc cell has a valid index; a failure is a missing centre or an off-lattice cell |
| Nuclei.PlantedCells | 2D-nuclei-growth/helpers_nuclei_growth.py:56-78 | each cell carries the id `j+1` of the last seed `j` covering it, or 0 if none does, and is solid iff it carries an id |
| Nuclei.LastCoverExtend | 2D-nuclei-growth/helpers_nuclei_growth.py:57-60 | a seed that misses a cell leaves that cell's last covering seed unchanged |
| Nuclei.PlantedConsistent | 2D-nuclei-growth/helpers_nuclei_growth.py:27-78 | the planted lattices are consistent: states are 0/1 and a cell is solid iff its grain id is nonzero |
| Nuclei.PlantedIds | 2D-nuclei-growth/helpers_nuclei_growth.py:56-78 | planting `n` seeds numbers grains `j+1` for seed `j`, so every cell's grain id is 0 or one of 1 to `n` |
| Nuclei.SquareInterior | 2D-nuclei-growth/helpers_nuclei_growth.py:59-64 | an interior square covers exactly the cells at most `size` rows and columns from its centre |
| Nuclei.SquareAcrossTopEdge | 2D-nuclei-growth/helpers_nuclei_growth.py:59-64 | a square reaching above the top edge, but not round to its own rows, covers nothing: its slice start wraps past its stop |
| Nuclei.SqBelow | 2D-nuclei-growth/helpers_nuclei_growth.py:75-76 | a cell whose squared offset is below `size^2` is less than `size` away along that axis |
| Nuclei.SqSmaller | 2D-nuclei-growth/helpers_nuclei_growth.py:75-76 | `(size-1)^2 < size^2` for a positive size |
| Nuclei.DiscFitsIff | 2D-nuclei-growth/helpers_nuclei_growth.py:70-78 | the disc loops index within numpy's range iff the disc's extreme rows and columns, `size - 1` from the centre, do |
| Nuclei.DiscExtremes | 2D-nuclei-growth/helpers_nuclei_growth.py:73-76 | the four cells `size - 1` from the centre along a row or column lie in the disc |
| Nuclei.DiscWithinExtremes | 2D-nuclei-growth/helpers_nuclei_growth.py:73-76 | every cell of the disc is less than `size` rows and columns from the centre |
| Nuclei.DiscInterior | 2D-nuclei-growth/helpers_nuclei_growth.py:73-78 | an interior disc covers exactly the cells strictly within distance `size` of its centre |
| Nuclei.InitializeNuclei | 2D-nuclei-growth/helpers_nuclei_growth.py:24-78 | a result is consistent and carries only grain ids 0 and 1 to the seed count; a random placement of two or more seeds with a known shape plants exactly the `n_seed` drawn centres, and a centred placement with a positive seed count plants the seed count's seeds at the one centre `(H/2, W/2)`; a random placement of fewer than two seeds fails for lack of distances; an unknown placement fails with unbound centres; an unknown shape gives empty lattices |
| Nuclei.CentredSpellingFails | 2D-nuclei-growth/helpers_nuclei_growth.py:24-34 | as written, `pos = "centre"` (or any centred spelling but `c`) with two or more seeds fails for lack of a second centre |
| Nuclei.PlantFailsPastLocs | 2D-nuclei-growth/helpers_nuclei_growth.py:57-60 | asking for more seeds than centres fails with a missing centre |
| Nuclei.CentredPlantsOneSeed | 2D-nuclei-growth/helpers_nuclei_growth.py:24-34 | corrected: any centred spelling plants exactly one seed, grain id 1, on the cells it covers around `(int(h/2), int(w/2))` |
| Nuclei.GrowthCell | 2D-nuclei-growth/helpers_nuclei_growth.py:218-233 | it fails iff the window has at least `rule` solid cells but no nonzero grain. A cell is solid iff its window has at least `rule` solid cells, and then takes a most frequent nonzero grain; otherwise it is 0/0 |
| Nuclei.GrowthStep | 2D-nuclei-growth/helpers_nuclei_growth.py:203-237 | a step succeeds iff every cell does, keeps the lattices consistent, and sets each cell to its window's cell |
| Nuclei.WindowsAgree | 2D-nuclei-growth/helpers_nuclei_growth.py:213-214 | entry `p` of the state window and of the grain window are the same torus cell |
| Nuclei.WindowsConsistent | 2D-nuclei-growth/helpers_nuclei_growth.py:213-218 | on consistent lattices the state window is 0/1 and each solid entry faces a nonzero grain |
| Nuclei.CellAtOk | 2D-nuclei-growth/helpers_nuclei_growth.py:218-226 | on consistent lattices with `rule >= 1` no cell fails |
| Nuclei.GrowthStepOk | 2D-nuclei-growth/helpers_nuclei_growth.py:207-233 | a step from consistent lattices with `rule >= 1` succeeds |
| Nuclei.GrowthKeepsGrains | 2D-nuclei-growth/helpers_nuclei_growth.py:223-229 | every grain id after a step is 0 or already on the lattice |
| Nuclei.RuleOneKeepsSolid | 2D-nuclei-growth/helpers_nuclei_growth.py:213-220 | with rule 1 a solid cell stays solid: its own state counts in its window |
| Nuclei.CentreOfWindow | 2D-nuclei-growth/helpers_nuclei_growth.py:213 | the window's middle entry is `k` rows and `k` columns in |
| Nuclei.BinarySumAtLeastEntry | 2D-nuclei-growth/helpers_nuclei_growth.py:218 | a 0/1 window sums to at least each of its entries |
| Nuclei.EvolveGrowth | 2D-nuclei-growth/helpers_nuclei_growth.py:187-243 | `steps + 1` snapshots of the initial shape; element 0 is the input and each later one is the step from its predecessor |
| Nuclei.GrowthFromConsistent | 2D-nuclei-growth/helpers_nuclei_growth.py:191-240 | from consistent lattices with `rule >= 1` the evolution never fails, and every snapshot is consistent |
| Nuclei.StepGrainsFrom | 2D-nuclei-growth/helpers_nuclei_growth.py:223-229 | a step keeps every nonzero grain id within a given set of ids |
| Nuclei.EvolveKeepsGrains | 2D-nuclei-growth/helpers_nuclei_growth.py:191-240 | no snapshot holds a nonzero grain id that the initial grain lattice lacks |
| Nuclei.SnapshotStep | 2D-nuclei-growth/helpers_nuclei_growth.py:195-240 | snapshot `t` is the step from snapshot `t - 1` |
| Nuclei.GrainSource | 2D-nuclei-growth/helpers_nuclei_growth.py:223-229 | a nonzero grain after a step sits on some cell of the lattice before it |

## Left out

- Random initialisation, drawing and spacing. This covers:
  - the 1D random initial state (`1D-Wolfram/wolframCA_functions.py:22-24`);
  - the rejection loop for random seed centres (`2D-nuclei-growth/helpers_nuclei_growth.py:36-54`), with its `randint` bounds and float `min_spacing` test.

  The accepted centres, the cells `np.random.choice` draws and the tied grain picked are parameters. The one exception is `np.min` of an empty distance list, which fails for fewer than two seeds; it is modelled. No uniformity is claimed.
- Floating point:
  - State fractions are exact reals, so `round(f * n)` is rounded exactly.
  - The disc test `sqrt(dr^2 + dc^2) < size` is compared by squaring.
  - numpy's float-typed lattices are modelled as integers.
- `n_states` other than 2 for the Wolfram automaton. `np.binary_repr` writes base 2 whatever `n_states` is.
- Von Neumann neighbourhoods and non-periodic 2D boundaries. Neither evolution implements them.
  - Any neighbourhood type other than Moore skips the whole update block, crop and append included (clustering lines 156-171, nuclei lines 207-240). So nothing is appended for step 1, and step 2 then fails with IndexError on `sys_store_state[t-1]`. With one time step the source returns only the initial lattice or lattices.
  - A non-periodic boundary leaves `sys_old_state_bc` unbound, so the first step fails at clustering line 154 or nuclei line 203.
- Lattice.Expandable: the model expands only by orders in `1..min(H, W)`. A larger order makes numpy's block assignments fail to broadcast, except on a lattice one row high or one column wide: there the single row or column is broadcast, and the source goes on evolving. Those lattices are not modelled. Order 0 (neighbourhood size 0, 1 or 2) is left out too: the main-block assignment `[0:-0, 0:-0] = sys_array` targets an empty block, which fails to broadcast except on a 1-by-1 lattice.
- Wolfram.ValidRule: the model takes rule numbers in `0..2^(2^nbSize) - 1`, the range the docstring of `1D-Wolfram/wolframCA_functions.py` gives at line 79 (0 to 255 for three cells). Line 52's `np.binary_repr(rule_number, width=n_nb_configs)` also takes a negative rule in `-2^(w-1)..-1`, where `w = 2^nbSize`, as its two's complement `rule + 2^w`: rule -1 with three cells runs as rule 255. A rule too wide for `w` digits relies on numpy's insufficient-width behaviour, deprecated since NumPy 1.12. Neither is modelled.
- Wolfram.Paddable: a periodic boundary needs an order of at most the state's length. For a larger order the slices `[-k:]` and `[0:k]` each give the whole state only once, so the padding is no wrap and later snapshots change length. This is not modelled.
- `nb_order = 0` in the 1D automaton: the crop `[0:-0]` empties the state.
- Clustering.MajorityStep, Clustering.EvolveMajority, Nuclei.GrowthStep and Nuclei.EvolveGrowth: they use the corrected torus expansion, not the source's as-written one (see Findings). `Lattice.ExpandAsWrittenValues` shows that the as-written expansion also copies only lattice cells. The step and evolution lemmas are not restated for it.
- Negative step counts: `steps` is a natural number. For a negative `time_steps` the source's loop `range(1, t + 1)` is empty and returns only the initial lattice.
- Clustering.Initialize: requires `n_states >= len(state_fractions) + 1`. With fewer ids, `zip` drops the last counts, and the loop may never fill every cell.
- Nuclei.InitializeNuclei: with a random placement and a negative seed count, `randint` raises before `np.min` does. Both are one error, `NoDistances`.
- Wolfram.ParseBoundary: `int` is modelled on ASCII digit strings only. Python also accepts signs, surrounding whitespace, underscores and non-ASCII digits. `lower()` is ASCII-only too.
- GIF export, space-time plotting, progress printing, and the interactive run scripts. These are I/O.

## Findings

| source | as written | input that shows it | evidently intended | confidence | as-written member | corrected member |
|---|---|---|---|---|---|---|
| 2D-clustering-of-states/helpers_clustering_of_states.py:64 (also 2D-nuclei-growth/helpers_nuclei_growth.py:107) | the right band of the middle rows is filled with `sys_array[:, -nb_order:]`, the source's last columns | a 3-by-3 lattice `[[1,0,0],[0,0,0],[0,0,0]]` with order 1: expanded cell (1, 4) is 0, while on the torus it is cell (0, 0) = 1 | `sys_array[:, 0:nb_order]`, the first columns, as every other block of the torus uses | high (not executed) | Lattice.ExpandAsWrittenIsNotTorus | Lattice.ExpandTorus |
| 2D-clustering-of-states/helpers_clustering_of_states.py:26-27 | each state's count is `round(f * n)` and the last state gets the remainder, which can be negative | fractions `0.3, 0.3, 0.3` with 5 unassigned cells give counts `2, 2, 2, -1`, and `np.random.choice` refuses size -1 | counts that are non-negative and sum to the unassigned cells | medium (not executed) | Clustering.InitializeAsWrittenFails | Clustering.ClampShares |
| 2D-clustering-of-states/helpers_clustering_of_states.py:27-31 | the last count is `n_unassigned_cells - np.sum(state_n_cells)`, and `np.sum([])` is the float `0.0` | one state and `state_fractions = []`, which the docstring allows (a value for every state but the last), on any lattice with a cell: the count is a float and `np.random.choice` raises TypeError | an integer count, so a single state fills every cell | medium (not executed) | Clustering.SingleStateAsWrittenFails | Clustering.SingleStateFills |
| 2D-nuclei-growth/helpers_nuclei_growth.py:24-34 | only the exact spelling `pos == "c"` forces one seed, while line 33 accepts `centre`, `center` and capitals as centred | `pos = "centre"`, `n_seed = 2`, square seeds: one centre is bound and `loc_R[1]` raises IndexError | every centred spelling forces one seed | high (not executed) | Nuclei.CentredSpellingFails | Nuclei.CentredPlantsOneSeed |

=== FILE: clustering.dfy ===
/** The 2D clustering automaton of
    `2D-clustering-of-states/helpers_clustering_of_states.py`: the fractional
    initialiser that hands every unassigned cell a state id, and the Moore
    majority vote over a periodically expanded lattice. */
module Clustering {
  import opened Wrappers
  import opened Numeric
  import opened Lattice
  import opened Counting

  // ---------------------------------------------------------------------
  // State ids and the majority vote

  /** The cells of a lattice, row after row. */
  function Flatten(g: Grid): (cells: seq<int>)
  {
    if |g| == 0 then [] else Flatten(g[..|g| - 1]) + g[|g| - 1]
  }

  /** Flattening keeps exactly the values the lattice holds. */
  lemma {:induction false} FlattenValues(g: Grid, x: int)
    ensures x in Flatten(g) <==> InGrid(g, x)
  {
    if |g| > 0 {
      var init := g[..|g| - 1];
      FlattenValues(init, x);
      if InGrid(init, x) {
        var r :| 0 <= r < |init| && x in init[r];
        assert x in g[r];
      }
      if InGrid(g, x) {
        var r :| 0 <= r < |g| && x in g[r];
        if r < |g| - 1 {
          assert x in init[r];
        }
      }
      assert x in g[|g| - 1] ==> InGrid(g, x);
    }
  }

  /** `np.unique(sys_init_state)`: the distinct values of the lattice,
      ascending. */
  function StateIds(g: Grid): (ids: seq<int>)
    ensures StrictlySorted(ids)
    ensures forall x :: x in ids <==> InGrid(g, x)
  {
    var ids := Unique(Flatten(g));
    forall x ensures x in ids <==> InGrid(g, x) {
      FlattenValues(g, x);
    }
    ids
  }

  /** `x` is the id the majority vote must pick from window `w`: one of `ids`
      with the highest count in the window, and the smallest such id. */
  predicate IsMajority(w: seq<int>, ids: seq<int>, x: int)
  {
    && x in ids
    && (forall y :: y in ids ==> multiset(w)[y] <= multiset(w)[x])
    && (forall y :: y in ids && y < x ==> multiset(w)[y] < multiset(w)[x])
  }

  /** The new state of a cell whose window is `w`: `state_ids[np.argmax(counts)]`
      over the per-id counts `np.count_nonzero(window == id)`. */
  function Vote(w: seq<int>, ids: seq<int>): (x: int)
    requires |ids| > 0 && StrictlySorted(ids)
    ensures IsMajority(w, ids, x)
  {
    var counts := seq(|ids|, j requires 0 <= j < |ids| => multiset(w)[ids[j]]);
    var m := ArgMax(counts);
    forall y | y in ids ensures multiset(w)[y] <= multiset(w)[ids[m]] {
      var j :| 0 <= j < |ids| && ids[j] == y;
      assert counts[j] <= counts[m];
    }
    forall y | y in ids && y < ids[m] ensures multiset(w)[y] < multiset(w)[ids[m]] {
      var j :| 0 <= j < |ids| && ids[j] == y;
      assert j < m;
      assert counts[j] < counts[m];
    }
    ids[m]
  }

  /** At most one id meets the majority condition. */
  lemma MajorityUnique(w: seq<int>, ids: seq<int>, x: int, y: int)
    requires IsMajority(w, ids, x) && IsMajority(w, ids, y)
    ensures x == y
  {
  }

  /** The vote is characterised by the majority condition: it picks `x` if
      and only if `x` has the highest count and no smaller id ties with it. */
  lemma VoteIff(w: seq<int>, ids: seq<int>, x: int)
    requires |ids| > 0 && StrictlySorted(ids)
    ensures Vote(w, ids) == x <==> IsMajority(w, ids, x)
  {
    if IsMajority(w, ids, x) {
      MajorityUnique(w, ids, x, Vote(w, ids));
    }
  }

  /** The Moore neighbourhood of order `k` of cell `(r, c)` on the torus, read
      row by row, centre included: an independent statement of what the
      window of the expanded lattice holds. */
  function TorusNeighbourhood(a: Grid, k: nat, r: nat, c: nat): (nb: seq<int>)
    requires IsLattice(a) && |a[0]| > 0
    ensures |nb| == (2 * k + 1) * (2 * k + 1)
  {
    var side := 2 * k + 1;
    seq(side * side, p requires 0 <= p < side * side =>
      DivModBounds(p, side);
      a[(r + p / side - k) % |a|][(c + p % side - k) % |a[0]|])
  }

  /** The window the source slices out of the expanded lattice is the torus
      neighbourhood. */
  lemma WindowIsTorusNeighbourhood(a: Grid, k: nat, r: nat, c: nat)
    requires Expandable(a, k)
    requires r < |a| && c < |a[0]|
    ensures Window(ExpandPeriodic(a, k), r, c, k) == TorusNeighbourhood(a, k, r, c)
  {
    var nb := Window(ExpandPeriodic(a, k), r, c, k);
    forall p | 0 <= p < |nb| ensures nb[p] == TorusNeighbourhood(a, k, r, c)[p] {
      WindowTorus(a, k, r, c, p);
    }
  }

  /** One time step of `f_evolve_sys`: every cell takes the vote of its
      window of the periodically expanded lattice; the border is cropped. */
  function MajorityStep(a: Grid, ids: seq<int>, k: nat): (n: Grid)
    requires Expandable(a, k) && |ids| > 0 && StrictlySorted(ids)
    ensures IsGrid(n, |a|, |a[0]|)
  {
    var b := ExpandPeriodic(a, k);
    seq(|a|, r requires 0 <= r < |a| =>
      seq(|a[0]|, c requires 0 <= c < |a[0]| => Vote(Window(b, r, c, k), ids)))
  }

  /** Each new cell is the majority vote over its torus neighbourhood; in
      particular it is one of `ids`. */
  lemma MajorityStepCell(a: Grid, ids: seq<int>, k: nat, r: nat, c: nat)
    requires Expandable(a, k) && |ids| > 0 && StrictlySorted(ids)
    requires r < |a| && c < |a[0]|
    ensures IsMajority(TorusNeighbourhood(a, k, r, c), ids, MajorityStep(a, ids, k)[r][c])
    ensures MajorityStep(a, ids, k)[r][c] in ids
  {
    WindowIsTorusNeighbourhood(a, k, r, c);
  }

  /** The snapshots from `init` on, each computed from its predecessor with
      the ids fixed at the start. */
  function EvolveWith(init: Grid, ids: seq<int>, k: nat, steps: nat): (h: seq<Grid>)
    requires Expandable(init, k) && |ids| > 0 && StrictlySorted(ids)
    ensures |h| == steps + 1 && h[0] == init
    ensures forall t :: 0 <= t < |h| ==> IsGrid(h[t], |init|, |init[0]|) && Expandable(h[t], k)
    ensures forall t :: 1 <= t < |h| ==> h[t] == MajorityStep(h[t - 1], ids, k)
  {
    if steps == 0 then [init]
    else
      var prev := EvolveWith(init, ids, k, steps - 1);
      prev + [MajorityStep(prev[steps - 1], ids, k)]
  }

  /** The arguments `f_evolve_sys` handles: a Moore neighbourhood of order at
      least 1 that fits inside the lattice. */
  predicate MajorityArgs(init: Grid, nbSize: nat)
  {
    Expandable(init, Order(nbSize))
  }

  /** `f_evolve_sys` with a Moore neighbourhood and periodic boundaries:
      `steps + 1` snapshots, the first the initial lattice. */
  function EvolveMajority(init: Grid, nbSize: nat, steps: nat): (h: seq<Grid>)
    requires MajorityArgs(init, nbSize)
    ensures |h| == steps + 1 && h[0] == init
    ensures forall t :: 0 <= t < |h| ==> IsGrid(h[t], |init|, |init[0]|)
  {
    EvolveWith(init, StateIds(init), Order(nbSize), steps)
  }

  /** The set of states never grows: every cell of every snapshot holds a
      value of the initial lattice. */
  lemma MajorityClosed(init: Grid, nbSize: nat, steps: nat, t: nat, r: nat, c: nat)
    requires MajorityArgs(init, nbSize)
    requires t <= steps && r < |init| && c < |init[0]|
    ensures InGrid(init, EvolveMajority(init, nbSize, steps)[t][r][c])
  {
    var h := EvolveMajority(init, nbSize, steps);
    if t == 0 {
      assert h[0][r][c] in init[r];
    } else {
      MajorityStepCell(h[t - 1], StateIds(init), Order(nbSize), r, c);
    }
  }

  /** Every cell of `a` holds `v`. */
  predicate Uniform(a: Grid, v: int)
  {
    forall r, c :: 0 <= r < |a| && 0 <= c < |a[r]| ==> a[r][c] == v
  }

  /** A uniform lattice votes for its own value everywhere: in every window
      the value occurs in every cell and every other id not at all. */
  lemma UniformStep(a: Grid, ids: seq<int>, k: nat, v: int)
    requires Expandable(a, k) && Uniform(a, v)
    requires |ids| > 0 && StrictlySorted(ids) && v in ids
    ensures MajorityStep(a, ids, k) == a
  {
    var n := MajorityStep(a, ids, k);
    forall r | 0 <= r < |a| ensures n[r] == a[r] {
      forall c | 0 <= c < |a[0]| ensures n[r][c] == a[r][c] {
        UniformCell(a, ids, k, v, r, c);
      }
    }
  }

  /** One cell of a uniform lattice's step keeps the lattice's value. */
  lemma UniformCell(a: Grid, ids: seq<int>, k: nat, v: int, r: nat, c: nat)
    requires Expandable(a, k) && Uniform(a, v)
    requires |ids| > 0 && StrictlySorted(ids) && v in ids
    requires r < |a| && c < |a[0]|
    ensures MajorityStep(a, ids, k)[r][c] == v
  {
    MajorityStepCell(a, ids, k, r, c);
    var nb := TorusNeighbourhood(a, k, r, c);
    assert forall p :: 0 <= p < |nb| ==> nb[p] == v;
    assert nb[0] == v;
    forall y | y in ids && y != v ensures multiset(nb)[y] == 0 {
      assert y !in nb;
    }
    VoteIff(nb, ids, v);
    MajorityUnique(nb, ids, v, MajorityStep(a, ids, k)[r][c]);
  }

  /** A uniform lattice is a fixed point: every snapshot equals the initial
      lattice. */
  lemma UniformFixedPoint(init: Grid, nbSize: nat, steps: nat, v: int, t: nat)
    requires MajorityArgs(init, nbSize) && Uniform(init, v)
    requires t <= steps
    ensures EvolveMajority(init, nbSize, steps)[t] == init
  {
    assert v in StateIds(init) by {
      assert init[0][0] == v;
      assert v in init[0];
    }
    UniformSnapshots(init, StateIds(init), Order(nbSize), steps, v, t);
  }

  lemma {:induction false} UniformSnapshots(init: Grid, ids: seq<int>, k: nat, steps: nat, v: int, t: nat)
    requires Expandable(init, k) && Uniform(init, v)
    requires |ids| > 0 && StrictlySorted(ids) && v in ids
    requires t <= steps
    ensures EvolveWith(init, ids, k, steps)[t] == init
  {
    if t > 0 {
      UniformSnapshots(init, ids, k, steps, v, t - 1);
      UniformStep(init, ids, k, v);
    }
  }

  // ---------------------------------------------------------------------
  // The fractional initialiser

  /** The ways `np.random.choice` refuses a draw: a negative sample size,
      samples requested from an empty pool, or a sample size that is a float.
      The last arises with no fractions at all: the remainder
      `n - np.sum([])` is then the float `n - 0.0`. */
  datatype InitError = NegativeCount | EmptyPool | FloatCount

  /** How a pass turns the state fractions into per-state cell counts:
      as the source computes them, or clamped so that no count is negative
      and the running total never exceeds the unassigned cells. */
  datatype CountPolicy = AsWritten | Clamped

  /** `int(round(f * n))`: a fraction's share of `n` cells, rounded half to
      even. */
  function Share(f: real, n: nat): (c: int)
    ensures f * n as real - 0.5 <= c as real <= f * n as real + 0.5
    ensures (c as real == f * n as real - 0.5 || c as real == f * n as real + 0.5) ==> c % 2 == 0
  {
    RoundHalfEven(f * n as real)
  }

  /** The shares of every fraction: each the integer nearest to its
      fraction of `n`, an exact tie going to the even neighbour. */
  function Rounded(fractions: seq<real>, n: nat): (rs: seq<int>)
    ensures |rs| == |fractions|
    ensures forall i :: 0 <= i < |rs| ==>
      fractions[i] * n as real - 0.5 <= rs[i] as real <= fractions[i] * n as real + 0.5
    ensures forall i :: 0 <= i < |rs| ==>
      (rs[i] as real == fractions[i] * n as real - 0.5 || rs[i] as real == fractions[i] * n as real + 0.5)
      ==> rs[i] % 2 == 0
  {
    seq(|fractions|, i requires 0 <= i < |fractions| => Share(fractions[i], n))
  }

  lemma SumSnoc(s: seq<int>, x: int)
    ensures Sum(s + [x]) == Sum(s) + x
  {
    assert (s + [x])[..|s|] == s;
  }

  lemma SumCons(x: int, s: seq<int>)
    ensures Sum([x] + s) == x + Sum(s)
  {
    SumAppend([x], s);
    assert [x][..0] == [];
  }

  /** The counts of one pass as the source computes them: the rounded
      fractions of the `n` unassigned cells, and the remainder for the last
      state. */
  function RoundedCounts(fractions: seq<real>, n: nat): (counts: seq<int>)
    ensures |counts| == |fractions| + 1
    ensures Sum(counts) == n
    ensures counts[..|fractions|] == Rounded(fractions, n)
  {
    var rs := Rounded(fractions, n);
    SumSnoc(rs, n - Sum(rs));
    assert (rs + [n - Sum(rs)])[..|fractions|] == rs;
    rs + [n - Sum(rs)]
  }

  /** The corrected counts: each share is cut to the range from 0 to the
      cells still unclaimed, `rest`; the last state takes whatever is left. */
  function ClampShares(shares: seq<int>, rest: nat): (counts: seq<int>)
    ensures |counts| == |shares| + 1
    ensures Sum(counts) == rest
    ensures forall i :: 0 <= i < |counts| ==> counts[i] >= 0
  {
    if |shares| == 0 then
      assert Sum([rest]) == Sum([]) + rest by { SumSnoc([], rest); }
      [rest]
    else
      var r := shares[0];
      var c := if r < 0 then 0 else if r > rest then rest else r;
      var tail := ClampShares(shares[1..], rest - c);
      SumCons(c, tail);
      [c] + tail
  }

  /** The clamp changes nothing when the shares are all non-negative and fit
      in `rest`: the correction only alters the passes that fail. */
  lemma {:induction false} ClampedAgrees(shares: seq<int>, rest: nat)
    requires forall i :: 0 <= i < |shares| ==> shares[i] >= 0
    requires Sum(shares) <= rest
    ensures ClampShares(shares, rest) == shares + [rest - Sum(shares)]
  {
    if |shares| > 0 {
      var r, tail := shares[0], shares[1..];
      SumFront(shares);
      SumNonNegative(tail);
      var rest' := rest - r;
      ClampSharesFront(shares, rest);
      ClampedAgrees(tail, rest');
      assert shares == [r] + tail;
      assert rest' - Sum(tail) == rest - Sum(shares);
    }
  }

  lemma ClampSharesFront(shares: seq<int>, rest: nat)
    requires |shares| > 0 && 0 <= shares[0] <= rest
    ensures ClampShares(shares, rest) == [shares[0]] + ClampShares(shares[1..], rest - shares[0])
  {
  }

  lemma SumFront(s: seq<int>)
    requires |s| > 0
    ensures Sum(s) == s[0] + Sum(s[1..])
  {
    assert s == [s[0]] + s[1..];
    SumCons(s[0], s[1..]);
  }

  lemma {:induction false} SumNonNegative(s: seq<int>)
    requires forall i :: 0 <= i < |s| ==> s[i] >= 0
    ensures Sum(s) >= 0
  {
    if |s| > 0 {
      SumNonNegative(s[..|s| - 1]);
    }
  }

  predicate NonNegative(s: seq<int>)
  {
    forall i :: 0 <= i < |s| ==> s[i] >= 0
  }

  predicate HasPositive(s: seq<int>)
  {
    exists i :: 0 <= i < |s| && s[i] > 0
  }

  /** What the tail of a count list shares with the whole list. */
  lemma TailFacts(counts: seq<int>)
    requires |counts| > 0
    ensures NonNegative(counts) <==> counts[0] >= 0 && NonNegative(counts[1..])
    ensures NonNegative(counts) ==> Sum(counts[1..]) >= 0
    ensures HasPositive(counts) && counts[0] <= 0 ==> HasPositive(counts[1..])
  {
    if NonNegative(counts) {
      SumNonNegative(counts[1..]);
    }
    if counts[0] >= 0 && NonNegative(counts[1..]) {
      forall i | 0 <= i < |counts| ensures counts[i] >= 0 {
        if i > 0 {
          assert counts[i] == counts[1..][i - 1];
        }
      }
    }
    if HasPositive(counts) && counts[0] <= 0 {
      var i :| 0 <= i < |counts| && counts[i] > 0;
      assert counts[1..][i - 1] > 0;
    }
  }

  /** The counts of one pass over `n` unassigned cells, under either policy:
      one count per state, adding up to `n`. */
  function PassCounts(policy: CountPolicy, fractions: seq<real>, n: nat): (counts: seq<int>)
    ensures |counts| == |fractions| + 1
    ensures Sum(counts) == n
    ensures policy == Clamped ==> forall i :: 0 <= i < |counts| ==> counts[i] >= 0
  {
    match policy
    case AsWritten => RoundedCounts(fractions, n)
    case Clamped => ClampShares(Rounded(fractions, n), n)
  }

  /** With no unassigned cell every count of either policy is 0. */
  lemma PassCountsOfZero(policy: CountPolicy, fractions: seq<real>)
    ensures forall i :: 0 <= i < |fractions| + 1 ==> PassCounts(policy, fractions, 0)[i] == 0
  {
    var counts := PassCounts(policy, fractions, 0);
    var rs := Rounded(fractions, 0);
    forall i | 0 <= i < |fractions| ensures rs[i] == 0 {
      assert fractions[i] * 0 as real == 0.0;
    }
    if policy == Clamped {
      ClampedOfZero(rs);
    } else {
      assert counts[..|fractions|] == rs;
      assert forall i :: 0 <= i < |fractions| ==> counts[i] == rs[i];
      SumOfZeros(rs);
    }
  }

  lemma {:induction false} ClampedOfZero(shares: seq<int>)
    ensures forall i :: 0 <= i < |shares| + 1 ==> ClampShares(shares, 0)[i] == 0
  {
    if |shares| > 0 {
      ClampedOfZero(shares[1..]);
    }
  }

  lemma {:induction false} SumOfZeros(s: seq<int>)
    requires forall i :: 0 <= i < |s| ==> s[i] == 0
    ensures Sum(s) == 0
  {
    if |s| > 0 {
      SumOfZeros(s[..|s| - 1]);
    }
  }

  /** `np.where(cells == 0)[0]`: the positions of the unassigned cells,
      ascending, one per unassigned cell. */
  function Zeros(cells: seq<int>): (pool: seq<nat>)
    ensures |pool| == multiset(cells)[0]
    ensures forall m :: 0 <= m < |pool| ==> pool[m] < |cells| && cells[pool[m]] == 0
    ensures forall j :: 0 <= j < |cells| && cells[j] == 0 ==> j in pool
  {
    if |cells| == 0 then []
    else
      var init, last := cells[..|cells| - 1], cells[|cells| - 1];
      ZeroCountSnoc(cells);
      var pool := Zeros(init);
      if last == 0 then pool + [|cells| - 1] else pool
  }

  /** The unassigned cells of a non-empty sequence: those of its front part,
      and the last cell if it is one. */
  lemma ZeroCountSnoc(cells: seq<int>)
    requires |cells| > 0
    ensures var init := cells[..|cells| - 1];
      && cells == init + [cells[|cells| - 1]]
      && multiset(cells)[0] == multiset(init)[0] + (if cells[|cells| - 1] == 0 then 1 else 0)
  {
    assert cells == cells[..|cells| - 1] + [cells[|cells| - 1]];
  }

  /** `cells[locs] = id`: every listed position gets `id`, one after the
      other. Each write of a nonzero id removes at most one unassigned cell. */
  function AssignAll(cells: seq<int>, locs: seq<nat>, id: int): (r: seq<int>)
    requires forall m :: 0 <= m < |locs| ==> locs[m] < |cells|
    ensures |r| == |cells|
    ensures forall j :: 0 <= j < |cells| ==> r[j] == (if j in locs then id else cells[j])
    ensures id != 0 ==> multiset(cells)[0] - |locs| <= multiset(r)[0] <= multiset(cells)[0]
    ensures id != 0 && |locs| > 0 && cells[locs[0]] == 0 ==> multiset(r)[0] < multiset(cells)[0]
    decreases |locs|
  {
    if |locs| == 0 then cells
    else
      var next := cells[locs[0] := id];
      var r := AssignAll(next, locs[1..], id);
      assert forall j :: j in locs <==> j == locs[0] || j in locs[1..];
      r
  }

  /** One state's turn in a pass: `np.random.choice` draws `count` positions,
      with replacement, from the unassigned cells, and they get `id`. The
      chooser supplies the `m`-th draw as an index into the pool. */
  function AssignState(cells: seq<int>, id: int, count: int, draw: nat -> nat): (r: Result<seq<int>, InitError>)
    ensures r.Ok? <==> count >= 0 && (count > 0 ==> multiset(cells)[0] > 0)
    ensures r.Err? ==> r.error == (if count < 0 then NegativeCount else EmptyPool)
    ensures r.Ok? ==> |r.value| == |cells|
    ensures r.Ok? ==> forall j :: 0 <= j < |cells| && r.value[j] != cells[j] ==> cells[j] == 0 && r.value[j] == id
  {
    if count < 0 then Err(NegativeCount)
    else if count == 0 then Ok(cells)
    else
      var pool := Zeros(cells);
      if |pool| == 0 then Err(EmptyPool)
      else
        var locs := seq(count, m requires 0 <= m < count => pool[draw(m) % |pool|]);
        Ok(AssignAll(cells, locs, id))
  }

  /** A successful turn of a nonzero id with a positive count assigns at least
      one and at most `count` cells. */
  lemma AssignStateCount(cells: seq<int>, id: int, count: int, draw: nat -> nat)
    requires id != 0 && AssignState(cells, id, count, draw).Ok?
    ensures var r := AssignState(cells, id, count, draw).value;
      multiset(cells)[0] - count <= multiset(r)[0] <= multiset(cells)[0]
      && (count > 0 ==> multiset(r)[0] < multiset(cells)[0])
  {
    if count > 0 {
      var pool := Zeros(cells);
      var locs := seq(count, m requires 0 <= m < count => pool[draw(m) % |pool|]);
      assert cells[locs[0]] == 0;
    }
  }

  /** The states' turns of one pass, ids `id`, `id + 1`, ... in order; the
      pool is recomputed before every turn. */
  function AssignStates(cells: seq<int>, counts: seq<int>, id: int, draw: (int, nat) -> nat): (r: Result<seq<int>, InitError>)
    requires id >= 1
    ensures r.Ok? ==> FillsZeros(cells, r.value, id, id + |counts| - 1)
    ensures r.Ok? ==> NonNegative(counts)
    ensures r.Ok? ==> multiset(r.value)[0] <= multiset(cells)[0]
    ensures r.Ok? && HasPositive(counts) ==> multiset(r.value)[0] < multiset(cells)[0]
    ensures NonNegative(counts) && Sum(counts) <= multiset(cells)[0] ==> r.Ok?
    decreases |counts|
  {
    if |counts| == 0 then Ok(cells)
    else
      var c, tail := counts[0], counts[1..];
      TailFacts(counts);
      FirstFits(counts, multiset(cells)[0]);
      match AssignState(cells, id, c, m => draw(id, m))
      case Err(e) => Err(e)
      case Ok(next) =>
        AssignStateCount(cells, id, c, m => draw(id, m));
        RemainingFit(counts, multiset(cells)[0], multiset(next)[0]);
        var r := AssignStates(next, tail, id + 1, draw);
        if r.Ok? then FillsZerosJoin(cells, next, r.value, id, id + |counts| - 1); r
        else r
  }

  /** Non-negative counts that fit the unassigned cells leave the first
      state a share it can take. */
  lemma FirstFits(counts: seq<int>, before: int)
    requires |counts| > 0
    ensures NonNegative(counts) && Sum(counts) <= before ==> 0 <= counts[0] <= before
  {
    SumFront(counts);
    TailFacts(counts);
  }

  /** Counts that fit the unassigned cells still fit once the first state
      has taken its share. */
  lemma RemainingFit(counts: seq<int>, before: int, after: int)
    requires |counts| > 0 && before - counts[0] <= after
    ensures NonNegative(counts) && Sum(counts) <= before ==> Sum(counts[1..]) <= after
  {
    SumFront(counts);
  }

  /** A sequence of integers with a positive sum has a positive entry. */
  lemma {:induction false} PositiveSumHasPositive(s: seq<int>)
    ensures Sum(s) > 0 ==> exists i :: 0 <= i < |s| && s[i] > 0
  {
    if Sum(s) > 0 && s[|s| - 1] <= 0 {
      PositiveSumHasPositive(s[..|s| - 1]);
      var i :| 0 <= i < |s| - 1 && s[..|s| - 1][i] > 0;
      assert s[i] > 0;
    }
  }

  /** One pass of the `while` loop: the counts for the cells still unassigned,
      then every state's turn. The chooser's first argument numbers the pass. */
  function InitPass(policy: CountPolicy, cells: seq<int>, fractions: seq<real>, choose: (nat, int, nat) -> nat, pass: nat): (r: Result<seq<int>, InitError>)
    ensures r.Ok? ==> FillsZeros(cells, r.value, 1, |fractions| + 1)
    ensures r.Ok? ==> multiset(r.value)[0] <= multiset(cells)[0]
    ensures r.Ok? && multiset(cells)[0] > 0 ==> multiset(r.value)[0] < multiset(cells)[0]
    ensures r.Ok? <==>
      (policy == AsWritten ==> |fractions| >= 1) &&
      forall i :: 0 <= i < |fractions| + 1 ==> PassCounts(policy, fractions, multiset(cells)[0])[i] >= 0
    ensures policy == AsWritten && |fractions| == 0 ==> r == Err(FloatCount)
    ensures policy == Clamped ==> r.Ok?
  {
    var n := multiset(cells)[0];
    var counts := PassCounts(policy, fractions, n);
    PositiveSumHasPositive(counts);
    if policy == AsWritten && |fractions| == 0 then Err(FloatCount)
    else AssignStates(cells, counts, 1, (id, m) => choose(pass, id, m))
  }

  /** The `while` loop from pass `pass` on. Its test reads the number of
      unassigned cells counted at the start of the previous pass, `lastN`, so
      the loop stops only after a pass that began with none: the last pass
      assigns nothing. */
  function FillFrom(policy: CountPolicy, cells: seq<int>, fractions: seq<real>, choose: (nat, int, nat) -> nat, pass: nat, lastN: nat): (r: Result<seq<int>, InitError>)
    requires lastN == 0 ==> multiset(cells)[0] == 0
    ensures r.Ok? ==> FillsZeros(cells, r.value, 1, |fractions| + 1) && multiset(r.value)[0] == 0
    ensures policy == AsWritten && |fractions| == 0 && lastN > 0 ==> r == Err(FloatCount)
    ensures policy == Clamped ==> r.Ok?
    decreases multiset(cells)[0] + (if lastN > 0 then 1 else 0)
  {
    if lastN == 0 then Ok(cells)
    else
      var n := multiset(cells)[0];
      match InitPass(policy, cells, fractions, choose, pass)
      case Err(e) => Err(e)
      case Ok(next) =>
        var r := FillFrom(policy, next, fractions, choose, pass + 1, n);
        if r.Ok? then FillsZerosCompose(cells, next, r.value, 1, |fractions| + 1); r
        else r
  }

  /** `b` is `a` with some unassigned cells given an id from `lo` to `hi`. */
  predicate FillsZeros(a: seq<int>, b: seq<int>, lo: int, hi: int)
  {
    |a| == |b| && forall j :: 0 <= j < |a| && b[j] != a[j] ==> a[j] == 0 && lo <= b[j] <= hi
  }

  lemma FillsZerosCompose(a: seq<int>, b: seq<int>, c: seq<int>, lo: int, hi: int)
    requires FillsZeros(a, b, lo, hi) && FillsZeros(b, c, lo, hi)
    ensures FillsZeros(a, c, lo, hi)
  {
  }

  /** A turn of id `lo` followed by the turns of ids `lo + 1` to `hi`. */
  lemma FillsZerosJoin(a: seq<int>, b: seq<int>, c: seq<int>, lo: int, hi: int)
    requires 1 <= lo <= hi
    requires FillsZeros(a, b, lo, lo) && FillsZeros(b, c, lo + 1, hi)
    ensures FillsZeros(a, c, lo, hi)
  {
  }

  /** `reshape(sys_size)`: `h` rows of `w` cells, filled row after row. */
  function Reshape(cells: seq<int>, h: nat, w: nat): (g: Grid)
    requires |cells| == h * w
    ensures IsGrid(g, h, w)
  {
    if h == 0 then []
    else
      var cut := (h - 1) * w;
      assert cut + w == h * w;
      Reshape(cells[..cut], h - 1, w) + [cells[cut..]]
  }

  /** Reading the reshaped lattice row after row gives the cells back. */
  lemma {:induction false} FlattenReshape(cells: seq<int>, h: nat, w: nat)
    requires |cells| == h * w
    ensures Flatten(Reshape(cells, h, w)) == cells
  {
    if h > 0 {
      var cut := (h - 1) * w;
      assert cut + w == h * w;
      var g := Reshape(cells, h, w);
      assert g[..h - 1] == Reshape(cells[..cut], h - 1, w);
      FlattenReshape(cells[..cut], h - 1, w);
      assert cells == cells[..cut] + cells[cut..];
    }
  }

  /** Cell `(r, c)` of the reshaped lattice is cell `r * w + c` of the
      sequence. */
  lemma {:induction false} ReshapeIndex(cells: seq<int>, h: nat, w: nat, r: nat, c: nat)
    requires |cells| == h * w
    requires r < h && c < w
    ensures r * w + c < |cells|
    ensures Reshape(cells, h, w)[r][c] == cells[r * w + c]
  {
    var cut := (h - 1) * w;
    assert cut + w == h * w;
    if r < h - 1 {
      assert r * w + w <= cut by { RowBound(r, h - 1, w); }
      ReshapeIndex(cells[..cut], h - 1, w, r, c);
    }
  }

  lemma RowBound(r: nat, h: nat, w: nat)
    requires r < h
    ensures r * w + w <= h * w
  {
    assert (h - r) * w >= w by {
      assert h - r >= 1;
    }
  }

  /** `np.zeros(shape=sys_n_cells)`: `n` unassigned cells. */
  function Unassigned(n: nat): (cells: seq<int>)
    ensures |cells| == n && multiset(cells)[0] == n
    ensures forall p :: 0 <= p < n ==> cells[p] == 0
  {
    if n == 0 then [] else Unassigned(n - 1) + [0]
  }

  /** `f_sys_initialize`: every cell of an `h`-by-`w` lattice starts
      unassigned and the loop runs until no pass finds an unassigned cell.
      The fractions give every state but the last its share of each pass. */
  function Initialize(policy: CountPolicy, h: nat, w: nat, nStates: nat, fractions: seq<real>, choose: (nat, int, nat) -> nat): (r: Result<Grid, InitError>)
    requires nStates >= |fractions| + 1
    ensures r.Ok? ==> IsGrid(r.value, h, w)
    ensures r.Ok? ==> forall i, j :: 0 <= i < h && 0 <= j < w ==> 1 <= r.value[i][j] <= nStates
    ensures policy == AsWritten && |fractions| == 0 && h * w > 0 ==> r == Err(FloatCount)
    ensures policy == Clamped ==> r.Ok?
  {
    var cells := Unassigned(h * w);
    match FillFrom(policy, cells, fractions, choose, 0, h * w)
    case Err(e) => Err(e)
    case Ok(filled) =>
      FilledCells(cells, filled, h, w, nStates, |fractions|);
      Ok(Reshape(filled, h, w))
  }

  lemma FilledCells(cells: seq<int>, filled: seq<int>, h: nat, w: nat, nStates: nat, nFractions: nat)
    requires |cells| == |filled| == h * w
    requires forall p :: 0 <= p < |cells| ==> cells[p] == 0
    requires multiset(filled)[0] == 0
    requires FillsZeros(cells, filled, 1, nFractions + 1)
    requires nStates >= nFractions + 1
    ensures forall i, j :: 0 <= i < h && 0 <= j < w ==> 1 <= Reshape(filled, h, w)[i][j] <= nStates
  {
    forall i, j | 0 <= i < h && 0 <= j < w ensures 1 <= Reshape(filled, h, w)[i][j] <= nStates {
      ReshapeIndex(filled, h, w, i, j);
      var p := i * w + j;
      assert filled[p] in multiset(filled);
    }
  }

  /** As written, a single state with no fractions, the case the docstring
      allows as "a value for each state except the last", fails on every
      lattice with a cell: the last count `n - np.sum([])` is a float. */
  lemma SingleStateAsWrittenFails(h: nat, w: nat, choose: (nat, int, nat) -> nat)
    requires h * w > 0
    ensures Initialize(AsWritten, h, w, 1, [], choose) == Err(FloatCount)
  {
  }

  /** The corrected initialiser, whose counts are integers, gives every cell
      of a single-state lattice state 1. */
  lemma SingleStateFills(h: nat, w: nat, choose: (nat, int, nat) -> nat)
    ensures var r := Initialize(Clamped, h, w, 1, [], choose);
      r.Ok? && IsGrid(r.value, h, w) && forall i, j :: 0 <= i < h && 0 <= j < w ==> r.value[i][j] == 1
  {
  }

  /** Where the source's own counts are all non-negative the corrected
      counts are the same counts, so the correction changes only the passes
      the source cannot complete. */
  lemma ClampedMatchesWhenValid(fractions: seq<real>, n: nat)
    requires forall i :: 0 <= i < |fractions| + 1 ==> PassCounts(AsWritten, fractions, n)[i] >= 0
    ensures PassCounts(Clamped, fractions, n) == PassCounts(AsWritten, fractions, n)
  {
    var rs := Rounded(fractions, n);
    var counts := RoundedCounts(fractions, n);
    assert PassCounts(AsWritten, fractions, n) == counts == rs + [n - Sum(rs)];
    assert forall i :: 0 <= i < |rs| ==> rs[i] == counts[i];
    assert counts[|rs|] >= 0;
    ClampedAgrees(rs, n);
  }

  /** Three fractions of 0.3 over five cells: each share is 1.5, which rounds
      to 2, so the last state is left -1 cells. */
  lemma RoundedCountsNegative(fractions: seq<real>, n: nat)
    requires fractions == [0.3, 0.3, 0.3] && n == 5
    ensures RoundedCounts(fractions, n) == [2, 2, 2, -1]
  {
    var s := Share(0.3, 5);
    assert s == 2 by {
      assert 0.3 * 5 as real == 1.5;
    }
    var rs := Rounded(fractions, n);
    assert rs == [2, 2, 2];
    assert Sum(rs) == 6 by {
      SumSnoc([2, 2], 2);
      SumSnoc([2], 2);
      SumSnoc([], 2);
      assert [2, 2, 2] == [2, 2] + [2] && [2, 2] == [2] + [2] && [2] == [] + [2];
    }
  }

  /** As written, initialising a 1-by-5 lattice with four states and
      fractions 0.3, 0.3, 0.3 fails in its first pass, whatever the draws:
      the last state's count is -1 and `np.random.choice` refuses it. */
  lemma InitializeAsWrittenFails(fractions: seq<real>, choose: (nat, int, nat) -> nat)
    requires fractions == [0.3, 0.3, 0.3]
    ensures Initialize(AsWritten, 1, 5, 4, fractions, choose).Err?
  {
    var cells := Unassigned(5);
    RoundedCountsNegative(fractions, 5);
    assert PassCounts(AsWritten, fractions, 5)[3] < 0;
    assert InitPass(AsWritten, cells, fractions, choose, 0).Err?;
  }
}

=== FILE: counting.dfy ===
/** Counting within neighbourhood windows: distinct values in ascending
    order (`np.unique`), the first index of a maximum (`np.argmax`), and the
    most frequent nonzero values of a window. */
module Counting {

  predicate StrictlySorted(s: seq<int>)
  {
    forall i, j :: 0 <= i < j < |s| ==> s[i] < s[j]
  }

  /** Adds `x` to an ascending sequence of distinct values. */
  function Insert(xs: seq<int>, x: int): (r: seq<int>)
    requires StrictlySorted(xs)
    ensures StrictlySorted(r)
    ensures forall y :: y in r <==> y in xs || y == x
  {
    if |xs| == 0 then [x]
    else if x < xs[0] then [x] + xs
    else if x == xs[0] then xs
    else
      var rest := Insert(xs[1..], x);
      forall y | y in rest ensures xs[0] < y {
        if y in xs[1..] {
          var i :| 0 <= i < |xs[1..]| && xs[1..][i] == y;
          assert xs[i + 1] == y;
        }
      }
      ConsSorted(xs[0], rest);
      [xs[0]] + rest
  }

  lemma ConsSorted(a: int, s: seq<int>)
    requires StrictlySorted(s)
    requires forall y :: y in s ==> a < y
    ensures StrictlySorted([a] + s)
  {
    var t := [a] + s;
    forall i, j | 0 <= i < j < |t| ensures t[i] < t[j] {
      assert t[j] == s[j - 1];
      if i > 0 {
        assert t[i] == s[i - 1];
      } else {
        assert s[j - 1] in s;
      }
    }
  }

  /** `np.unique`: the distinct values of `s`, ascending. */
  function Unique(s: seq<int>): (r: seq<int>)
    ensures StrictlySorted(r)
    ensures forall y :: y in r <==> y in s
  {
    if |s| == 0 then [] else Insert(Unique(s[..|s| - 1]), s[|s| - 1])
  }

  /** `np.argmax`: the index of the first maximum. */
  function ArgMax(s: seq<int>): (m: nat)
    requires |s| > 0
    ensures m < |s|
    ensures forall j :: 0 <= j < |s| ==> s[j] <= s[m]
    ensures forall j :: 0 <= j < m ==> s[j] < s[m]
  {
    if |s| == 1 then 0
    else
      var m := ArgMax(s[..|s| - 1]);
      if s[|s| - 1] > s[m] then |s| - 1 else m
  }

  /** `s[~np.isin(s, [0])]`: the nonzero entries of `s`, in order. */
  function NonZero(s: seq<int>): (r: seq<int>)
    ensures 0 !in r
    ensures forall x :: x != 0 ==> multiset(r)[x] == multiset(s)[x]
  {
    if |s| == 0 then []
    else
      var init := s[..|s| - 1];
      assert s == init + [s[|s| - 1]];
      var r := NonZero(init);
      if s[|s| - 1] == 0 then r else r + [s[|s| - 1]]
  }

  /** The entries of the ascending sequence `ids` that occur exactly `n` times
      in `s`. */
  function WithCount(ids: seq<int>, s: seq<int>, n: nat): (r: seq<int>)
    requires StrictlySorted(ids)
    ensures StrictlySorted(r)
    ensures forall x :: x in r <==> x in ids && multiset(s)[x] == n
  {
    if |ids| == 0 then []
    else
      var rest := WithCount(ids[1..], s, n);
      assert forall j :: 0 <= j < |rest| ==> ids[0] < rest[j] by {
        forall j | 0 <= j < |rest| ensures ids[0] < rest[j] {
          assert rest[j] in ids[1..];
          var i :| 0 <= i < |ids[1..]| && ids[1..][i] == rest[j];
          assert ids[i + 1] == rest[j];
        }
      }
      assert forall x :: x in ids <==> x == ids[0] || x in ids[1..];
      if multiset(s)[ids[0]] == n then [ids[0]] + rest else rest
  }

  /** A value `x` is a most frequent nonzero value of `s`: no nonzero value
      of `s` occurs more often. */
  predicate IsMostFrequent(s: seq<int>, x: int)
  {
    x != 0 && x in s && forall y :: y != 0 && y in s ==> multiset(s)[y] <= multiset(s)[x]
  }

  /** The grain ids of a window that tie for the highest count, ignoring 0,
      ascending: `gID_unique[np.where(gID_counts == max(gID_counts))]`. It is
      empty exactly when the window holds no nonzero id. */
  function MostFrequent(s: seq<int>): (tied: seq<int>)
    ensures StrictlySorted(tied)
    ensures forall x :: x in tied <==> IsMostFrequent(s, x)
    ensures |tied| == 0 <==> forall x :: x in s ==> x == 0
  {
    var nz := NonZero(s);
    var ids := Unique(nz);
    if |ids| == 0 then
      assert forall x :: x in s && x != 0 ==> x in nz by {
        forall x | x in s && x != 0 ensures x in nz {
          assert multiset(s)[x] > 0;
        }
      }
      []
    else
      var counts := seq(|ids|, j requires 0 <= j < |ids| => multiset(nz)[ids[j]]);
      var top := counts[ArgMax(counts)];
      var tied := WithCount(ids, nz, top);
      MostFrequentSpec(s, nz, ids, counts, top, tied);
      assert ids[ArgMax(counts)] in tied;
      assert ids[0] in nz;
      tied
  }

  lemma MostFrequentSpec(s: seq<int>, nz: seq<int>, ids: seq<int>, counts: seq<int>, top: int, tied: seq<int>)
    requires nz == NonZero(s) && ids == Unique(nz) && |ids| > 0
    requires |counts| == |ids| && forall j :: 0 <= j < |ids| ==> counts[j] == multiset(nz)[ids[j]]
    requires top == counts[ArgMax(counts)]
    requires top >= 0 && tied == WithCount(ids, nz, top)
    ensures forall x :: x in tied <==> IsMostFrequent(s, x)
  {
    forall x ensures x in tied ==> IsMostFrequent(s, x) {
      if x in tied {
        TiedIsMostFrequent(s, nz, ids, counts, top, x);
      }
    }
    forall x ensures IsMostFrequent(s, x) ==> x in tied {
      if IsMostFrequent(s, x) {
        MostFrequentIsTied(s, nz, ids, counts, top, x);
      }
    }
  }

  lemma TiedIsMostFrequent(s: seq<int>, nz: seq<int>, ids: seq<int>, counts: seq<int>, top: int, x: int)
    requires nz == NonZero(s) && ids == Unique(nz)
    requires |counts| == |ids| && forall j :: 0 <= j < |ids| ==> counts[j] == multiset(nz)[ids[j]]
    requires forall j :: 0 <= j < |ids| ==> counts[j] <= top
    requires x in ids && multiset(nz)[x] == top
    ensures IsMostFrequent(s, x)
  {
    assert x in nz;
    assert x != 0;
    assert multiset(s)[x] == multiset(nz)[x] > 0;
    forall y | y != 0 && y in s ensures multiset(s)[y] <= multiset(s)[x] {
      assert multiset(s)[y] > 0;
      assert multiset(nz)[y] > 0;
      assert y in ids;
      var j :| 0 <= j < |ids| && ids[j] == y;
      assert counts[j] <= top;
    }
  }

  lemma MostFrequentIsTied(s: seq<int>, nz: seq<int>, ids: seq<int>, counts: seq<int>, top: int, x: int)
    requires nz == NonZero(s) && ids == Unique(nz) && |ids| > 0
    requires |counts| == |ids| && forall j :: 0 <= j < |ids| ==> counts[j] == multiset(nz)[ids[j]]
    requires top == counts[ArgMax(counts)]
    requires IsMostFrequent(s, x)
    ensures x in ids && multiset(nz)[x] == top
  {
    assert multiset(s)[x] > 0;
    assert multiset(nz)[x] > 0;
    assert x in ids;
    var j :| 0 <= j < |ids| && ids[j] == x;
    var m := ArgMax(counts);
    var best := ids[m];
    assert best in nz;
    assert best != 0;
    assert multiset(s)[best] == multiset(nz)[best] > 0;
    assert best in s;
    assert counts[m] <= counts[j];
  }
}

=== FILE: lattice.dfy ===
/** Lattices, boundary padding and neighbourhood windows shared by the 1D
    and 2D automata. */
module Lattice {
  import opened Numeric

  /** A 2D lattice, stored row by row. */
  type Grid = seq<seq<int>>

  /** `g` has `h` rows of `w` cells each. */
  predicate IsGrid(g: Grid, h: nat, w: nat)
  {
    |g| == h && forall r :: 0 <= r < h ==> |g[r]| == w
  }

  /** `g` is a non-empty rectangular lattice. */
  predicate IsLattice(g: Grid)
  {
    |g| > 0 && IsGrid(g, |g|, |g[0]|)
  }

  function Height(g: Grid): nat { |g| }

  function Width(g: Grid): nat
    requires |g| > 0
  {
    |g[0]|
  }

  /** The value `x` is held by some cell of `g`. */
  predicate InGrid(g: Grid, x: int)
  {
    exists r :: 0 <= r < |g| && x in g[r]
  }

  /** Periodic padding of order `k`: the last `k` cells, the sequence, then
      its first `k` cells. */
  function PeriodicPad<T>(s: seq<T>, k: nat): (p: seq<T>)
    requires 1 <= k <= |s|
    ensures |p| == |s| + 2 * k
  {
    s[|s| - k..] + s + s[..k]
  }

  /** Periodic padding reads the sequence as a ring: padded position `j`
      holds the cell `j - k` positions along, modulo the length. */
  lemma PeriodicPadTorus<T>(s: seq<T>, k: nat, j: int)
    requires 1 <= k <= |s|
    requires 0 <= j < |s| + 2 * k
    ensures PeriodicPad(s, k)[j] == s[(j - k) % |s|]
  {
    if j < k {
      ModOfNegative(j - k, |s|);
    } else if j < |s| + k {
      ModOfSmall(j - k, |s|);
    } else {
      ModOfLarge(j - k, |s|);
    }
  }

  /** Neighbourhood order `int((nb_size - 1) / 2)`: Python's `int` truncates
      `-0.5` to 0 for a neighbourhood size of 0. */
  function Order(nbSize: nat): nat
  {
    if nbSize == 0 then 0 else (nbSize - 1) / 2
  }

  /** The orders the model expands by: at least one and at most the
      lattice's height and width. Larger orders make numpy's block
      assignments fail to broadcast, except on a lattice one row high or one
      column wide, where the single row or column is broadcast instead. */
  predicate Expandable(a: Grid, k: nat)
  {
    IsLattice(a) && 1 <= k <= |a| && k <= |a[0]|
  }

  /** Periodic expansion of a lattice by `k` cells on every side, corner
      blocks included: every row is padded periodically, then the rows are. */
  function ExpandPeriodic(a: Grid, k: nat): (b: Grid)
    requires Expandable(a, k)
    ensures IsGrid(b, |a| + 2 * k, |a[0]| + 2 * k)
  {
    var rows := seq(|a|, r requires 0 <= r < |a| => PeriodicPad(a[r], k));
    var b := PeriodicPad(rows, k);
    assert forall r :: 0 <= r < |b| ==> b[r] in rows;
    b
  }

  /** The expanded lattice is the torus: cell `(r, c)` holds the source cell
      `k` rows up and `k` columns left, both indices taken modulo the shape. */
  lemma ExpandTorus(a: Grid, k: nat, r: int, c: int)
    requires Expandable(a, k)
    requires 0 <= r < |a| + 2 * k && 0 <= c < |a[0]| + 2 * k
    ensures ExpandPeriodic(a, k)[r][c] == a[(r - k) % |a|][(c - k) % |a[0]|]
  {
    var rows := seq(|a|, i requires 0 <= i < |a| => PeriodicPad(a[i], k));
    PeriodicPadTorus(rows, k, r);
    var src := (r - k) % |a|;
    PeriodicPadTorus(a[src], k, c);
  }

  /** Every value of the expanded lattice comes from the source lattice. */
  lemma ExpandValues(a: Grid, k: nat, r: int, c: int)
    requires Expandable(a, k)
    requires 0 <= r < |a| + 2 * k && 0 <= c < |a[0]| + 2 * k
    ensures InGrid(a, ExpandPeriodic(a, k)[r][c])
  {
    ExpandTorus(a, k, r, c);
    var i := (r - k) % |a|;
    assert a[i][(c - k) % |a[0]|] in a[i];
  }

  /** Row `i` of the expansion as the source writes it (see ExpandAsWritten). */
  function AsWrittenRow(a: Grid, k: nat, i: nat): (row: seq<int>)
    requires Expandable(a, k)
    requires i < |a| + 2 * k
    ensures |row| == |a[0]| + 2 * k
  {
    var h, w := |a|, |a[0]|;
    if i < k then PeriodicPad(a[h - k + i], k)
    else if i < h + k then a[i - k][w - k..] + a[i - k] + a[i - k][w - k..]
    else PeriodicPad(a[i - h - k], k)
  }

  /** The expansion exactly as the nine block assignments of
      `f_expand_array_for_bc` write it. The middle band of rows is padded on
      the right with the source's LAST `k` columns, the same block that pads
      it on the left. */
  function ExpandAsWritten(a: Grid, k: nat): (b: Grid)
    requires Expandable(a, k)
    ensures IsGrid(b, |a| + 2 * k, |a[0]| + 2 * k)
  {
    seq(|a| + 2 * k, i requires 0 <= i < |a| + 2 * k => AsWrittenRow(a, k, i))
  }

  /** The nine block assignments of the source, one clause per block: the
      main block, then top-left, top, top-right, right, bottom-right, bottom,
      bottom-left and left. */
  lemma ExpandAsWrittenBlocks(a: Grid, k: nat, r: int, c: int)
    requires Expandable(a, k)
    requires 0 <= r < |a| + 2 * k && 0 <= c < |a[0]| + 2 * k
    ensures var b, h, w := ExpandAsWritten(a, k), |a|, |a[0]|;
      && (k <= r < h + k && k <= c < w + k ==> b[r][c] == a[r - k][c - k])
      && (r < k && c < k ==> b[r][c] == a[h - k + r][w - k + c])
      && (r < k && k <= c < w + k ==> b[r][c] == a[h - k + r][c - k])
      && (r < k && w + k <= c ==> b[r][c] == a[h - k + r][c - w - k])
      && (k <= r < h + k && w + k <= c ==> b[r][c] == a[r - k][w - k + (c - w - k)])
      && (h + k <= r && w + k <= c ==> b[r][c] == a[r - h - k][c - w - k])
      && (h + k <= r && k <= c < w + k ==> b[r][c] == a[r - h - k][c - k])
      && (h + k <= r && c < k ==> b[r][c] == a[r - h - k][w - k + c])
      && (k <= r < h + k && c < k ==> b[r][c] == a[r - k][w - k + c])
  {
    assert ExpandAsWritten(a, k)[r] == AsWrittenRow(a, k, r);
  }

  /** The expansion as written agrees with the torus everywhere except in the
      right-hand block of the middle rows, where it repeats the source's last
      columns instead of wrapping round to its first ones. */
  lemma ExpandAsWrittenVersusTorus(a: Grid, k: nat, r: int, c: int)
    requires Expandable(a, k)
    requires 0 <= r < |a| + 2 * k && 0 <= c < |a[0]| + 2 * k
    ensures var w := |a[0]|;
      if k <= r < |a| + k && c >= w + k
      then ExpandAsWritten(a, k)[r][c] == a[r - k][c - 2 * k]
           && ExpandPeriodic(a, k)[r][c] == a[r - k][c - w - k]
      else ExpandAsWritten(a, k)[r][c] == ExpandPeriodic(a, k)[r][c]
  {
    var h, w := |a|, |a[0]|;
    ExpandTorus(a, k, r, c);
    if k <= r < h + k {
      ModOfSmall(r - k, h);
      if c >= w + k {
        ModOfLarge(c - k, w);
      } else {
        assert ExpandAsWritten(a, k)[r] == AsWrittenRow(a, k, r);
        assert PeriodicPad(a[r - k], k) == a[r - k][w - k..] + a[r - k] + a[r - k][..k];
        PeriodicPadTorus(a[r - k], k, c);
      }
    } else if r < k {
      ModOfNegative(r - k, h);
      assert ExpandAsWritten(a, k)[r] == AsWrittenRow(a, k, r);
      PeriodicPadTorus(a[h - k + r], k, c);
    } else {
      ModOfLarge(r - k, h);
      assert ExpandAsWritten(a, k)[r] == AsWrittenRow(a, k, r);
      PeriodicPadTorus(a[r - h - k], k, c);
    }
  }

  /** Like the torus, the expansion as written only copies cells of the
      lattice: every expanded value occurs in it. So the closure of the
      evolutions under their values does not depend on the faulty block. */
  lemma ExpandAsWrittenValues(a: Grid, k: nat, r: int, c: int)
    requires Expandable(a, k)
    requires 0 <= r < |a| + 2 * k && 0 <= c < |a[0]| + 2 * k
    ensures InGrid(a, ExpandAsWritten(a, k)[r][c])
  {
    ExpandAsWrittenVersusTorus(a, k, r, c);
    if k <= r < |a| + k && c >= |a[0]| + k {
      assert a[r - k][c - 2 * k] in a[r - k];
    } else {
      ExpandValues(a, k, r, c);
    }
  }

  /** A 3-by-3 lattice whose first and last columns differ shows the
      difference: the right-hand neighbour of cell (0, 2) is read as cell
      (0, 2) itself instead of cell (0, 0). */
  lemma ExpandAsWrittenIsNotTorus()
    ensures var a := [[1, 0, 0], [0, 0, 0], [0, 0, 0]];
      ExpandAsWritten(a, 1)[1][4] == 0 && ExpandPeriodic(a, 1)[1][4] == 1
  {
    var a := [[1, 0, 0], [0, 0, 0], [0, 0, 0]];
    ExpandAsWrittenVersusTorus(a, 1, 1, 4);
  }

  /** The `(2k+1)`-by-`(2k+1)` block of `b` whose top-left cell is `(r, c)`,
      read row by row: the Moore neighbourhood of order `k` of the expanded
      cell `(r + k, c + k)`. */
  function Window(b: Grid, r: nat, c: nat, k: nat): (nb: seq<int>)
    requires IsLattice(b)
    requires r + 2 * k < |b| && c + 2 * k < |b[0]|
    ensures |nb| == (2 * k + 1) * (2 * k + 1)
  {
    var side := 2 * k + 1;
    seq(side * side, p requires 0 <= p < side * side =>
      DivModBounds(p, side);
      b[r + p / side][c + p % side])
  }

  /** Cell `(r, c)` of `a` together with its Moore neighbours of order `k` on
      the torus: entry `p` of its window is the cell `p / (2k+1) - k` rows and
      `p % (2k+1) - k` columns away, wrapped round the lattice. */
  lemma WindowTorus(a: Grid, k: nat, r: nat, c: nat, p: nat)
    requires Expandable(a, k)
    requires r < |a| && c < |a[0]|
    requires p < (2 * k + 1) * (2 * k + 1)
    ensures var side := 2 * k + 1;
      0 <= p / side < side && 0 <= p % side < side &&
      Window(ExpandPeriodic(a, k), r, c, k)[p]
        == a[(r + p / side - k) % |a|][(c + p % side - k) % |a[0]|]
  {
    var side := 2 * k + 1;
    DivModBounds(p, side);
    ExpandTorus(a, k, r + p / side, c + p % side);
  }

  /** Every value in a window of the expanded lattice occurs in the lattice. */
  lemma WindowValues(a: Grid, k: nat, r: nat, c: nat, x: int)
    requires Expandable(a, k)
    requires r < |a| && c < |a[0]|
    requires x in Window(ExpandPeriodic(a, k), r, c, k)
    ensures InGrid(a, x)
  {
    var side := 2 * k + 1;
    var b := ExpandPeriodic(a, k);
    var nb := Window(b, r, c, k);
    var p :| 0 <= p < |nb| && nb[p] == x;
    DivModBounds(p, side);
    var i, j := r + p / side, c + p % side;
    assert nb[p] == b[i][j];
    ExpandValues(a, k, i, j);
  }
}

=== FILE: nuclei.dfy ===
/** The 2D nuclei-growth automaton of `2D-nuclei-growth/helpers_nuclei_growth.py`:
    seeds planted as squares or discs on a liquid lattice, then grown by a
    threshold rule that hands every new solid cell one of the most frequent
    grain ids around it. */
module Nuclei {
  import opened Wrappers
  import opened Numeric
  import opened Text
  import opened Lattice
  import opened Counting

  /** The two lattices the automaton carries: the cell states (0 liquid,
      1 solid) and the grain ids (0 for liquid cells). */
  datatype Lattices = Lattices(state: Grid, grain: Grid)

  /** Both lattices have `h` rows of `w` cells. */
  predicate Shaped(l: Lattices, h: nat, w: nat)
  {
    IsGrid(l.state, h, w) && IsGrid(l.grain, h, w)
  }

  /** The state lattice is 0/1 and records exactly which cells carry a
      grain. */
  predicate Consistent(l: Lattices, h: nat, w: nat)
  {
    && Shaped(l, h, w)
    && (forall r, c :: 0 <= r < h && 0 <= c < w ==> l.state[r][c] == 0 || l.state[r][c] == 1)
    && (forall r, c :: 0 <= r < h && 0 <= c < w ==> (l.state[r][c] == 1 <==> l.grain[r][c] != 0))
  }

  function Zeros(h: nat, w: nat): (g: Grid)
    ensures IsGrid(g, h, w)
    ensures forall r, c :: 0 <= r < h && 0 <= c < w ==> g[r][c] == 0
  {
    seq(h, _ => seq(w, _ => 0))
  }

  // ---------------------------------------------------------------------
  // Arguments

  datatype Centre = Centre(row: int, col: int)
  datatype Shape = Square | Circle
  datatype Placement = Centred | Random

  /** `pos.lower()` against the spellings `f_sys_initialize` accepts;
      `None` leaves the seed centres unbound. */
  function ParsePlacement(pos: string): (p: Option<Placement>)
    ensures p == Some(Centred) <==> Lower(pos) == "c" || Lower(pos) == "centre" || Lower(pos) == "center"
    ensures p == Some(Random) <==> Lower(pos) == "r" || Lower(pos) == "random"
  {
    var lower := Lower(pos);
    if lower == "c" || lower == "centre" || lower == "center" then Some(Centred)
    else if lower == "r" || lower == "random" then Some(Random)
    else None
  }

  /** `shape.lower()` against the spellings of the two seed shapes; `None`
      plants nothing. */
  function ParseShape(shape: string): (s: Option<Shape>)
    ensures s == Some(Square) <==> Lower(shape) == "s" || Lower(shape) == "sq" || Lower(shape) == "square"
    ensures s == Some(Circle) <==> Lower(shape) == "c" || Lower(shape) == "circle"
  {
    var lower := Lower(shape);
    if lower == "s" || lower == "sq" || lower == "square" then Some(Square)
    else if lower == "c" || lower == "circle" then Some(Circle)
    else None
  }

  /** How the number of seeds is settled: as the source does it, forcing a
      single seed only for the exact spelling `c`, or for every spelling of
      a centred placement. */
  datatype SeedPolicy = ExactSpelling | AnySpelling

  function SeedCount(policy: SeedPolicy, pos: string, nSeed: int): (n: int)
    ensures policy == AnySpelling && ParsePlacement(pos) == Some(Centred) ==> n == 1
    ensures pos == "c" ==> n == 1
    ensures ParsePlacement(pos) != Some(Centred) ==> n == nSeed
  {
    match policy
    case ExactSpelling => if pos == "c" then 1 else nSeed
    case AnySpelling => if ParsePlacement(pos) == Some(Centred) then 1 else nSeed
  }

  /** Under the source's rule a centred placement spelled other than `c`
      keeps the requested seed count. */
  lemma ExactSpellingKeepsCount(pos: string, nSeed: int)
    requires ParsePlacement(pos) == Some(Centred) && pos != "c"
    ensures SeedCount(ExactSpelling, pos, nSeed) == nSeed
    ensures SeedCount(AnySpelling, pos, nSeed) == 1
  {
  }

  // ---------------------------------------------------------------------
  // Stamping seeds

  /** Python's normalisation of a slice bound against a dimension of length
      `n`: a negative bound counts from the end, then the bound is clipped to
      the range from 0 to `n`. */
  function SliceBound(x: int, n: nat): (b: nat)
    ensures b <= n
  {
    if x < 0 then (if x + n < 0 then 0 else x + n)
    else if x > n then n
    else x
  }

  function Sq(x: int): nat
  {
    x * x
  }

  /** The cell `(row, col)` lies strictly within distance `size` of the centre:
      `sqrt(dr^2 + dc^2) < size`, with the square root compared by squaring. */
  predicate InDisc(ctr: Centre, size: int, row: int, col: int)
  {
    size > 0 && Sq(row - ctr.row) + Sq(col - ctr.col) < Sq(size)
  }

  /** Cell `(r, c)` of an `h`-by-`w` lattice is written when a seed of the
      given shape is planted at `ctr`. A square writes the slice
      `[row - size : row + size + 1]` in each direction. A disc writes every
      cell within `size` of the centre, a negative index wrapping round once,
      so cell `r` is written from row `r` or row `r - h`. */
  predicate Covers(shape: Shape, ctr: Centre, size: int, h: nat, w: nat, r: int, c: int)
  {
    match shape
    case Square =>
      && SliceBound(ctr.row - size, h) <= r < SliceBound(ctr.row + size + 1, h)
      && SliceBound(ctr.col - size, w) <= c < SliceBound(ctr.col + size + 1, w)
    case Circle =>
      InDisc(ctr, size, r, c) || InDisc(ctr, size, r - h, c)
      || InDisc(ctr, size, r, c - w) || InDisc(ctr, size, r - h, c - w)
  }

  /** Every cell of the disc loops has an index numpy accepts: no row below
      `-h` or from `h` on, and likewise for columns. */
  predicate DiscFits(ctr: Centre, size: int, h: nat, w: nat)
  {
    forall row, col | ctr.row - size <= row <= ctr.row + size && ctr.col - size <= col <= ctr.col + size ::
      InDisc(ctr, size, row, col) ==> -(h as int) <= row < h && -(w as int) <= col < w
  }

  /** Plants one seed with grain id `id`: every covered cell becomes solid
      and takes the id; the other cells keep their values. */
  function Stamp(l: Lattices, h: nat, w: nat, shape: Shape, ctr: Centre, size: int, id: int): (n: Lattices)
    requires Shaped(l, h, w)
    ensures Shaped(n, h, w)
  {
    Lattices(
      seq(h, r requires 0 <= r < h => seq(w, c requires 0 <= c < w =>
        if Covers(shape, ctr, size, h, w, r, c) then 1 else l.state[r][c])),
      seq(h, r requires 0 <= r < h => seq(w, c requires 0 <= c < w =>
        if Covers(shape, ctr, size, h, w, r, c) then id else l.grain[r][c])))
  }

  /** Why `f_sys_initialize` raises: the seed centres were never bound
      (NameError); fewer than two random seeds leave no distance to minimise
      (ValueError); a seed has no centre (IndexError); a disc cell lies
      beyond the lattice (IndexError). */
  datatype InitError = UnboundCentres | NoDistances | MissingCentre | OffLattice

  /** The first `n` seeds planted in order, seed `i` with grain id `i + 1`,
      on liquid lattices. A later seed overwrites an earlier one. */
  function Plant(h: nat, w: nat, shape: Shape, size: int, locs: seq<Centre>, n: nat): (r: Result<Lattices, InitError>)
    ensures r.Ok? ==> Shaped(r.value, h, w)
    ensures r.Ok? <==> n <= |locs| && (shape == Circle ==> forall j :: 0 <= j < n ==> DiscFits(locs[j], size, h, w))
    ensures r.Err? ==> r.error == MissingCentre || r.error == OffLattice
  {
    if n == 0 then Ok(Lattices(Zeros(h, w), Zeros(h, w)))
    else
      match Plant(h, w, shape, size, locs, n - 1)
      case Err(e) => Err(e)
      case Ok(l) =>
        if n - 1 >= |locs| then Err(MissingCentre)
        else if shape == Circle && !DiscFits(locs[n - 1], size, h, w) then Err(OffLattice)
        else Ok(Stamp(l, h, w, shape, locs[n - 1], size, n))
  }

  /** `g` is the grain id the first `n` seeds leave at cell `(r, c)`: 0 when
      no seed covers the cell, otherwise `j + 1` for the last seed `j` that
      does. */
  predicate LastCover(shape: Shape, size: int, locs: seq<Centre>, n: nat, h: nat, w: nat, r: int, c: int, g: int)
    requires n <= |locs|
  {
    || (g == 0 && forall j :: 0 <= j < n ==> !Covers(shape, locs[j], size, h, w, r, c))
    || (&& 1 <= g <= n
        && Covers(shape, locs[g - 1], size, h, w, r, c)
        && forall j :: g <= j < n ==> !Covers(shape, locs[j], size, h, w, r, c))
  }

  /** What the planted lattices hold: each cell carries the grain id of the
      last seed that covers it, or 0, and is solid exactly when it carries a
      grain. */
  lemma {:induction false} PlantedCells(h: nat, w: nat, shape: Shape, size: int, locs: seq<Centre>, n: nat, r: nat, c: nat)
    requires Plant(h, w, shape, size, locs, n).Ok?
    requires r < h && c < w
    ensures var l := Plant(h, w, shape, size, locs, n).value;
      && LastCover(shape, size, locs, n, h, w, r, c, l.grain[r][c])
      && l.state[r][c] == (if l.grain[r][c] == 0 then 0 else 1)
  {
    if n > 0 {
      var prev := Plant(h, w, shape, size, locs, n - 1).value;
      var l := Plant(h, w, shape, size, locs, n).value;
      assert l == Stamp(prev, h, w, shape, locs[n - 1], size, n);
      StampCell(prev, h, w, shape, locs[n - 1], size, n, r, c);
      if !Covers(shape, locs[n - 1], size, h, w, r, c) {
        PlantedCells(h, w, shape, size, locs, n - 1, r, c);
        LastCoverExtend(shape, size, locs, n, h, w, r, c, prev.grain[r][c]);
      }
    }
  }

  /** A seed that misses the cell leaves its record unchanged. */
  lemma LastCoverExtend(shape: Shape, size: int, locs: seq<Centre>, n: nat, h: nat, w: nat, r: int, c: int, g: int)
    requires 1 <= n <= |locs|
    requires LastCover(shape, size, locs, n - 1, h, w, r, c, g)
    requires !Covers(shape, locs[n - 1], size, h, w, r, c)
    ensures LastCover(shape, size, locs, n, h, w, r, c, g)
  {
  }

  /** A stamp writes exactly the covered cells. */
  lemma StampCell(l: Lattices, h: nat, w: nat, shape: Shape, ctr: Centre, size: int, id: int, r: nat, c: nat)
    requires Shaped(l, h, w) && r < h && c < w
    ensures var n := Stamp(l, h, w, shape, ctr, size, id);
      && n.grain[r][c] == (if Covers(shape, ctr, size, h, w, r, c) then id else l.grain[r][c])
      && n.state[r][c] == (if Covers(shape, ctr, size, h, w, r, c) then 1 else l.state[r][c])
  {
  }

  /** The planted lattices are consistent. */
  lemma PlantedConsistent(h: nat, w: nat, shape: Shape, size: int, locs: seq<Centre>, n: nat)
    requires Plant(h, w, shape, size, locs, n).Ok?
    ensures Consistent(Plant(h, w, shape, size, locs, n).value, h, w)
  {
    forall r, c | 0 <= r < h && 0 <= c < w
      ensures var l := Plant(h, w, shape, size, locs, n).value;
        l.state[r][c] == (if l.grain[r][c] == 0 then 0 else 1)
    {
      PlantedCells(h, w, shape, size, locs, n, r, c);
    }
  }

  /** Every grain id on the lattices is 0 or a seed number from 1 to `n`. */
  predicate GrainIdsUpTo(l: Lattices, h: nat, w: nat, n: int)
    requires Shaped(l, h, w)
  {
    forall r, c :: 0 <= r < h && 0 <= c < w ==> l.grain[r][c] == 0 || 1 <= l.grain[r][c] <= n
  }

  /** Planting `n` seeds leaves only the grain ids 1 to `n`, besides 0. */
  lemma PlantedIds(h: nat, w: nat, shape: Shape, size: int, locs: seq<Centre>, n: nat)
    requires Plant(h, w, shape, size, locs, n).Ok?
    ensures GrainIdsUpTo(Plant(h, w, shape, size, locs, n).value, h, w, n)
  {
    forall r, c | 0 <= r < h && 0 <= c < w
      ensures var l := Plant(h, w, shape, size, locs, n).value;
        l.grain[r][c] == 0 || 1 <= l.grain[r][c] <= n
    {
      PlantedCells(h, w, shape, size, locs, n, r, c);
    }
  }

  /** A square seed that lies inside the lattice covers the cells at most
      `size` rows and `size` columns from its centre. */
  lemma SquareInterior(ctr: Centre, size: int, h: nat, w: nat, r: int, c: int)
    requires size >= 0
    requires 0 <= ctr.row - size && ctr.row + size < h
    requires 0 <= ctr.col - size && ctr.col + size < w
    ensures Covers(Square, ctr, size, h, w, r, c) <==>
      ctr.row - size <= r <= ctr.row + size && ctr.col - size <= c <= ctr.col + size
  {
    assert SliceBound(ctr.row - size, h) == ctr.row - size;
    assert SliceBound(ctr.row + size + 1, h) == ctr.row + size + 1;
    assert SliceBound(ctr.col - size, w) == ctr.col - size;
    assert SliceBound(ctr.col + size + 1, w) == ctr.col + size + 1;
  }

  /** A square seed that reaches above the top edge without reaching round
      to its own rows is not planted at all: its row slice starts near the
      bottom of the lattice and ends above that start. */
  lemma SquareAcrossTopEdge(ctr: Centre, size: int, h: nat, w: nat, r: int, c: int)
    requires -(h as int) <= ctr.row - size < 0
    requires 0 <= ctr.row + size + 1 && 2 * size + 1 <= h
    ensures !Covers(Square, ctr, size, h, w, r, c)
  {
  }

  lemma SqBelow(a: int, s: int)
    requires s > 0 && Sq(a) < Sq(s)
    ensures -s < a < s
  {
  }

  lemma SqSmaller(s: int)
    requires s > 0
    ensures Sq(s - 1) < Sq(s)
  {
  }

  /** The disc loops stay within numpy's index range exactly when the
      extreme rows and columns of the disc, `size - 1` away from the centre,
      do. */
  lemma DiscFitsIff(ctr: Centre, size: int, h: nat, w: nat)
    ensures DiscFits(ctr, size, h, w) <==>
      size <= 0 ||
      (-(h as int) <= ctr.row - size + 1 && ctr.row + size - 1 < h &&
       -(w as int) <= ctr.col - size + 1 && ctr.col + size - 1 < w)
  {
    if size > 0 {
      DiscExtremes(ctr, size);
      DiscWithinExtremes(ctr, size);
    }
  }

  /** The four extreme cells of a disc, `size - 1` from its centre along a
      row or a column, lie in the disc. */
  lemma DiscExtremes(ctr: Centre, size: int)
    requires size > 0
    ensures InDisc(ctr, size, ctr.row - size + 1, ctr.col) && InDisc(ctr, size, ctr.row + size - 1, ctr.col)
    ensures InDisc(ctr, size, ctr.row, ctr.col - size + 1) && InDisc(ctr, size, ctr.row, ctr.col + size - 1)
  {
    SqSmaller(size);
    assert Sq(0) == 0;
    assert Sq(-(size - 1)) == Sq(size - 1);
  }

  /** Every cell of a disc is less than `size` rows and columns from its
      centre. */
  lemma DiscWithinExtremes(ctr: Centre, size: int)
    requires size > 0
    ensures forall row, col :: InDisc(ctr, size, row, col) ==>
      ctr.row - size + 1 <= row <= ctr.row + size - 1 && ctr.col - size + 1 <= col <= ctr.col + size - 1
  {
    forall row, col | InDisc(ctr, size, row, col)
      ensures ctr.row - size + 1 <= row <= ctr.row + size - 1 && ctr.col - size + 1 <= col <= ctr.col + size - 1
    {
      SqBelow(row - ctr.row, size);
      SqBelow(col - ctr.col, size);
    }
  }

  /** A disc seed that lies inside the lattice covers exactly the cells
      within distance `size` of its centre. */
  lemma DiscInterior(ctr: Centre, size: int, h: nat, w: nat, r: int, c: int)
    requires 0 <= r < h && 0 <= c < w
    requires 0 <= ctr.row - size + 1 && ctr.row + size - 1 < h
    requires 0 <= ctr.col - size + 1 && ctr.col + size - 1 < w
    ensures Covers(Circle, ctr, size, h, w, r, c) <==> InDisc(ctr, size, r, c)
  {
    if InDisc(ctr, size, r - h, c) {
      SqBelow(r - h - ctr.row, size);
    }
    if InDisc(ctr, size, r, c - w) {
      SqBelow(c - w - ctr.col, size);
    }
    if InDisc(ctr, size, r - h, c - w) {
      SqBelow(r - h - ctr.row, size);
    }
  }

  // ---------------------------------------------------------------------
  // The initialiser

  /** `f_sys_initialize` on an `h`-by-`w` lattice. A centred placement puts
      its one centre at `(int(h/2), int(w/2))`; a random one takes the centres
      `drawn(0)`, `drawn(1)`, ... that the spacing loop accepted. The seeds
      are planted only for a recognised shape. */
  function InitializeNuclei(policy: SeedPolicy, h: nat, w: nat, pos: string, nSeed: int, shape: string, size: int, drawn: nat -> Centre): (r: Result<Lattices, InitError>)
    ensures r.Ok? ==> Consistent(r.value, h, w)
    ensures r.Ok? ==> GrainIdsUpTo(r.value, h, w, SeedCount(policy, pos, nSeed))
    ensures ParsePlacement(pos) == Some(Random) && nSeed >= 2 && ParseShape(shape).Some? ==>
      r == Plant(h, w, ParseShape(shape).value, size, seq(nSeed, i requires 0 <= i < nSeed => drawn(i)), nSeed)
    ensures ParsePlacement(pos) == Some(Centred) && ParseShape(shape).Some? && SeedCount(policy, pos, nSeed) > 0 ==>
      r == Plant(h, w, ParseShape(shape).value, size, [Centre(h / 2, w / 2)], SeedCount(policy, pos, nSeed))
    ensures ParsePlacement(pos) == Some(Random) && nSeed < 2 ==> r == Err(NoDistances)
    ensures ParsePlacement(pos) == None && ParseShape(shape).Some? && SeedCount(policy, pos, nSeed) > 0 ==> r == Err(UnboundCentres)
    ensures ParseShape(shape).None? && !(ParsePlacement(pos) == Some(Random) && nSeed < 2) ==>
      r == Ok(Lattices(Zeros(h, w), Zeros(h, w)))
  {
    var n := SeedCount(policy, pos, nSeed);
    var placement := ParsePlacement(pos);
    if placement == Some(Random) && nSeed < 2 then Err(NoDistances)
    else
      match ParseShape(shape)
      case None => Ok(Lattices(Zeros(h, w), Zeros(h, w)))
      case Some(s) =>
        if n <= 0 then Ok(Lattices(Zeros(h, w), Zeros(h, w)))
        else
          match placement
          case None => Err(UnboundCentres)
          case Some(Centred) =>
            var planted := Plant(h, w, s, size, [Centre(h / 2, w / 2)], n);
            if planted.Ok? then
              PlantedConsistent(h, w, s, size, [Centre(h / 2, w / 2)], n);
              PlantedIds(h, w, s, size, [Centre(h / 2, w / 2)], n);
              planted
            else planted
          case Some(Random) =>
            var locs := seq(n, i requires 0 <= i < n => drawn(i));
            var planted := Plant(h, w, s, size, locs, n);
            if planted.Ok? then
              PlantedConsistent(h, w, s, size, locs, n);
              PlantedIds(h, w, s, size, locs, n);
              planted
            else planted
  }

  /** As written, a centred placement spelled `centre`, `center` or in
      capitals with two or more seeds requested plants the one centre and
      then fails to find a second. */
  lemma CentredSpellingFails(h: nat, w: nat, pos: string, nSeed: int, shape: string, size: int, drawn: nat -> Centre)
    requires ParsePlacement(pos) == Some(Centred) && pos != "c"
    requires nSeed >= 2 && ParseShape(shape).Some?
    requires ParseShape(shape) == Some(Circle) ==> DiscFits(Centre(h / 2, w / 2), size, h, w)
    ensures InitializeNuclei(ExactSpelling, h, w, pos, nSeed, shape, size, drawn) == Err(MissingCentre)
  {
    var s := ParseShape(shape).value;
    var locs := [Centre(h / 2, w / 2)];
    var n := SeedCount(ExactSpelling, pos, nSeed);
    assert n == nSeed;
    assert Plant(h, w, s, size, locs, 0).Ok?;
    assert Plant(h, w, s, size, locs, 1).Ok?;
    PlantFailsPastLocs(h, w, s, size, locs, n);
    assert InitializeNuclei(ExactSpelling, h, w, pos, nSeed, shape, size, drawn) == Plant(h, w, s, size, locs, n);
  }

  lemma PlantFailsPastLocs(h: nat, w: nat, shape: Shape, size: int, locs: seq<Centre>, n: nat)
    requires n > |locs|
    requires Plant(h, w, shape, size, locs, |locs|).Ok?
    ensures Plant(h, w, shape, size, locs, n) == Err(MissingCentre)
  {
    if n > |locs| + 1 {
      PlantFailsPastLocs(h, w, shape, size, locs, n - 1);
    }
  }

  /** With every centred spelling forcing one seed, a centred placement with
      a recognised shape plants exactly one seed, grain id 1, at the centre
      of the lattice (provided a disc fits). */
  lemma CentredPlantsOneSeed(h: nat, w: nat, pos: string, nSeed: int, shape: string, size: int, drawn: nat -> Centre, r: nat, c: nat)
    requires ParsePlacement(pos) == Some(Centred) && ParseShape(shape).Some?
    requires ParseShape(shape) == Some(Circle) ==> DiscFits(Centre(h / 2, w / 2), size, h, w)
    requires r < h && c < w
    ensures var res := InitializeNuclei(AnySpelling, h, w, pos, nSeed, shape, size, drawn);
      && res.Ok?
      && res.value.grain[r][c] == (if Covers(ParseShape(shape).value, Centre(h / 2, w / 2), size, h, w, r, c) then 1 else 0)
  {
    var s := ParseShape(shape).value;
    var locs := [Centre(h / 2, w / 2)];
    assert SeedCount(AnySpelling, pos, nSeed) == 1;
    assert Plant(h, w, s, size, locs, 0).Ok?;
    assert Plant(h, w, s, size, locs, 1).Ok?;
    assert InitializeNuclei(AnySpelling, h, w, pos, nSeed, shape, size, drawn) == Plant(h, w, s, size, locs, 1);
    PlantedCells(h, w, s, size, locs, 1, r, c);
  }

  // ---------------------------------------------------------------------
  // Growth

  /** `max(gID_counts)` of an empty window of grain ids (ValueError). */
  datatype GrowthError = NoGrainInWindow

  datatype Cell = Cell(state: int, grain: int)

  /** The new cell for state window `sw` and grain window `gw`: with at least
      `rule` solid neighbours the cell is solid and takes the `pick`-th of
      the most frequent grain ids around it; otherwise it is liquid. */
  function GrowthCell(sw: seq<int>, gw: seq<int>, rule: int, pick: nat): (r: Result<Cell, GrowthError>)
    ensures r.Err? <==> Sum(sw) >= rule && forall x :: x in gw ==> x == 0
    ensures r.Ok? ==> (r.value.state == 1 <==> Sum(sw) >= rule)
    ensures r.Ok? && r.value.state == 1 ==> IsMostFrequent(gw, r.value.grain)
    ensures r.Ok? && r.value.state != 1 ==> r.value == Cell(0, 0)
  {
    if Sum(sw) >= rule then
      var tied := MostFrequent(gw);
      if |tied| == 0 then Err(NoGrainInWindow)
      else Ok(Cell(1, tied[pick % |tied|]))
    else Ok(Cell(0, 0))
  }

  /** The state window of cell `(r, c)` in the periodically expanded state
      lattice. */
  function StateWindow(l: Lattices, h: nat, w: nat, k: nat, r: nat, c: nat): (sw: seq<int>)
    requires Shaped(l, h, w) && Expandable(l.state, k)
    requires r < h && c < w
    ensures |sw| == (2 * k + 1) * (2 * k + 1)
  {
    Window(ExpandPeriodic(l.state, k), r, c, k)
  }

  /** The grain window of cell `(r, c)` in the periodically expanded grain
      lattice. */
  function GrainWindow(l: Lattices, h: nat, w: nat, k: nat, r: nat, c: nat): (gw: seq<int>)
    requires Shaped(l, h, w) && Expandable(l.state, k)
    requires r < h && c < w
    ensures |gw| == (2 * k + 1) * (2 * k + 1)
  {
    Window(ExpandPeriodic(l.grain, k), r, c, k)
  }

  /** The new cell at `(r, c)`, from the windows of both expanded lattices. */
  function CellAt(l: Lattices, h: nat, w: nat, k: nat, rule: int, pick: (nat, nat) -> nat, r: nat, c: nat): Result<Cell, GrowthError>
    requires Shaped(l, h, w) && Expandable(l.state, k)
    requires r < h && c < w
  {
    GrowthCell(StateWindow(l, h, w, k, r, c), GrainWindow(l, h, w, k, r, c), rule, pick(r, c))
  }

  /** One time step of `f_evolve_sys` with a Moore neighbourhood of order `k`
      and periodic boundaries. It fails if any cell fails. */
  function GrowthStep(l: Lattices, h: nat, w: nat, k: nat, rule: int, pick: (nat, nat) -> nat): (n: Result<Lattices, GrowthError>)
    requires Shaped(l, h, w) && Expandable(l.state, k)
    ensures n.Ok? <==> forall r, c :: 0 <= r < h && 0 <= c < w ==> CellAt(l, h, w, k, rule, pick, r, c).Ok?
    ensures n.Ok? ==> Consistent(n.value, h, w)
    ensures n.Ok? ==> forall r, c :: 0 <= r < h && 0 <= c < w ==>
      Cell(n.value.state[r][c], n.value.grain[r][c]) == CellAt(l, h, w, k, rule, pick, r, c).value
  {
    if exists r, c :: 0 <= r < h && 0 <= c < w && CellAt(l, h, w, k, rule, pick, r, c).Err? then Err(NoGrainInWindow)
    else
      Ok(Lattices(
        seq(h, r requires 0 <= r < h => seq(w, c requires 0 <= c < w => CellAt(l, h, w, k, rule, pick, r, c).value.state)),
        seq(h, r requires 0 <= r < h => seq(w, c requires 0 <= c < w => CellAt(l, h, w, k, rule, pick, r, c).value.grain))))
  }

  /** Entry `p` of the state window and entry `p` of the grain window look
      at the same cell of the torus. */
  lemma WindowsAgree(l: Lattices, h: nat, w: nat, k: nat, r: nat, c: nat, p: nat)
    requires Shaped(l, h, w) && Expandable(l.state, k)
    requires r < h && c < w && p < (2 * k + 1) * (2 * k + 1)
    ensures var side := 2 * k + 1;
      var rr, cc := (r + p / side - k) % h, (c + p % side - k) % w;
      0 <= rr < h && 0 <= cc < w
      && StateWindow(l, h, w, k, r, c)[p] == l.state[rr][cc]
      && GrainWindow(l, h, w, k, r, c)[p] == l.grain[rr][cc]
  {
    WindowTorus(l.state, k, r, c, p);
    WindowTorus(l.grain, k, r, c, p);
  }

  /** On consistent lattices the state window is 0/1 and each of its solid
      cells faces a nonzero grain in the grain window. */
  lemma WindowsConsistent(l: Lattices, h: nat, w: nat, k: nat, r: nat, c: nat)
    requires Consistent(l, h, w) && Expandable(l.state, k)
    requires r < h && c < w
    ensures IsBinary(StateWindow(l, h, w, k, r, c))
    ensures forall p :: 0 <= p < (2 * k + 1) * (2 * k + 1) && StateWindow(l, h, w, k, r, c)[p] == 1 ==>
      GrainWindow(l, h, w, k, r, c)[p] != 0
  {
    var sw := StateWindow(l, h, w, k, r, c);
    forall p | 0 <= p < |sw|
      ensures sw[p] == 0 || sw[p] == 1
      ensures sw[p] == 1 ==> GrainWindow(l, h, w, k, r, c)[p] != 0
    {
      WindowsAgree(l, h, w, k, r, c, p);
    }
  }

  /** On consistent lattices with a rule of at least one solid neighbour no
      cell fails: a window with enough solid cells holds their grains. */
  lemma CellAtOk(l: Lattices, h: nat, w: nat, k: nat, rule: int, pick: (nat, nat) -> nat, r: nat, c: nat)
    requires Consistent(l, h, w) && Expandable(l.state, k)
    requires rule >= 1 && r < h && c < w
    ensures CellAt(l, h, w, k, rule, pick, r, c).Ok?
  {
    var sw := StateWindow(l, h, w, k, r, c);
    var gw := GrainWindow(l, h, w, k, r, c);
    if Sum(sw) >= rule {
      WindowsConsistent(l, h, w, k, r, c);
      PositiveBinarySumHasOne(sw);
      var p :| 0 <= p < |sw| && sw[p] == 1;
      assert gw[p] in gw;
    }
  }

  /** A step from consistent lattices under a rule of at least 1 succeeds. */
  lemma GrowthStepOk(l: Lattices, h: nat, w: nat, k: nat, rule: int, pick: (nat, nat) -> nat)
    requires Consistent(l, h, w) && Expandable(l.state, k)
    requires rule >= 1
    ensures GrowthStep(l, h, w, k, rule, pick).Ok?
  {
    forall r, c | 0 <= r < h && 0 <= c < w ensures CellAt(l, h, w, k, rule, pick, r, c).Ok? {
      CellAtOk(l, h, w, k, rule, pick, r, c);
    }
  }

  /** Growth invents no grain: every grain id after a step is 0 or was
      already on the lattice. */
  lemma GrowthKeepsGrains(l: Lattices, h: nat, w: nat, k: nat, rule: int, pick: (nat, nat) -> nat, r: nat, c: nat)
    requires Shaped(l, h, w) && Expandable(l.state, k)
    requires GrowthStep(l, h, w, k, rule, pick).Ok?
    requires r < h && c < w
    ensures var g := GrowthStep(l, h, w, k, rule, pick).value.grain[r][c];
      g == 0 || InGrid(l.grain, g)
  {
    var cell := CellAt(l, h, w, k, rule, pick, r, c).value;
    if cell.state == 1 {
      var gw := GrainWindow(l, h, w, k, r, c);
      assert cell.grain in gw;
      WindowValues(l.grain, k, r, c, cell.grain);
    }
  }

  /** Under the rule of one solid neighbour a solid cell stays solid: its
      own state counts in its window. */
  lemma RuleOneKeepsSolid(l: Lattices, h: nat, w: nat, k: nat, pick: (nat, nat) -> nat, r: nat, c: nat)
    requires Consistent(l, h, w) && Expandable(l.state, k)
    requires r < h && c < w && l.state[r][c] == 1
    ensures GrowthStep(l, h, w, k, 1, pick).Ok?
    ensures GrowthStep(l, h, w, k, 1, pick).value.state[r][c] == 1
  {
    GrowthStepOk(l, h, w, k, 1, pick);
    var sw := StateWindow(l, h, w, k, r, c);
    var p := CentreOfWindow(k);
    WindowsAgree(l, h, w, k, r, c, p);
    ModOfSmall(r, h);
    ModOfSmall(c, w);
    WindowsConsistent(l, h, w, k, r, c);
    BinarySumAtLeastEntry(sw, p);
  }

  /** The middle entry of a `(2k+1)`-by-`(2k+1)` window, `k` rows and `k`
      columns in. */
  function CentreOfWindow(k: nat): (p: nat)
    ensures p < (2 * k + 1) * (2 * k + 1)
    ensures p / (2 * k + 1) == k && p % (2 * k + 1) == k
  {
    var side := 2 * k + 1;
    QuotientRemainder(k, k, side);
    k * side + k
  }

  /** A 0/1 sequence sums to at least each of its entries. */
  lemma {:induction false} BinarySumAtLeastEntry(s: seq<int>, p: nat)
    requires IsBinary(s) && p < |s|
    ensures Sum(s) >= s[p]
  {
    var q := s[..|s| - 1];
    assert IsBinary(q) by {
      forall i | 0 <= i < |q| ensures q[i] == 0 || q[i] == 1 {
        assert q[i] == s[i];
      }
    }
    if p < |s| - 1 {
      BinarySumAtLeastEntry(q, p);
    } else if |q| > 0 {
      BinarySumAtLeastEntry(q, 0);
    }
  }

  /** The grain choices of time step `t`. */
  function StepPicks(pick: (nat, nat, nat) -> nat, t: nat): (nat, nat) -> nat
  {
    (r, c) => pick(t, r, c)
  }

  /** The snapshots of `f_evolve_sys` from `init` on, the `t`-th step drawing
      its grain choices from `pick(t, -, -)`. */
  function EvolveGrowth(init: Lattices, h: nat, w: nat, nbSize: nat, rule: int, steps: nat, pick: (nat, nat, nat) -> nat): (r: Result<seq<Lattices>, GrowthError>)
    requires Shaped(init, h, w) && Expandable(init.state, Order(nbSize))
    ensures r.Ok? ==> |r.value| == steps + 1 && r.value[0] == init
    ensures r.Ok? ==> forall t :: 0 <= t < |r.value| ==> Shaped(r.value[t], h, w)
    ensures r.Ok? ==> forall t :: 1 <= t < |r.value| ==>
      GrowthStep(r.value[t - 1], h, w, Order(nbSize), rule, StepPicks(pick, t)) == Ok(r.value[t])
  {
    if steps == 0 then Ok([init])
    else
      match EvolveGrowth(init, h, w, nbSize, rule, steps - 1, pick)
      case Err(e) => Err(e)
      case Ok(prev) =>
        var last := prev[steps - 1];
        assert IsLattice(last.state) && |last.state| == |init.state| && |last.state[0]| == |init.state[0]|;
        match GrowthStep(last, h, w, Order(nbSize), rule, StepPicks(pick, steps))
        case Err(e) => Err(e)
        case Ok(next) => Ok(prev + [next])
  }

  /** From consistent lattices under a rule of at least one solid neighbour
      the evolution never fails and every snapshot is consistent. */
  lemma {:induction false} GrowthFromConsistent(init: Lattices, h: nat, w: nat, nbSize: nat, rule: int, steps: nat, pick: (nat, nat, nat) -> nat)
    requires Consistent(init, h, w) && Expandable(init.state, Order(nbSize))
    requires rule >= 1
    ensures var r := EvolveGrowth(init, h, w, nbSize, rule, steps, pick);
      r.Ok? && forall t :: 0 <= t < |r.value| ==> Consistent(r.value[t], h, w)
  {
    if steps > 0 {
      GrowthFromConsistent(init, h, w, nbSize, rule, steps - 1, pick);
      var prev := EvolveGrowth(init, h, w, nbSize, rule, steps - 1, pick).value;
      var last := prev[steps - 1];
      var k := Order(nbSize);
      assert Consistent(last, h, w);
      assert Expandable(last.state, k);
      GrowthStepOk(last, h, w, k, rule, StepPicks(pick, steps));
      var next := GrowthStep(last, h, w, k, rule, StepPicks(pick, steps)).value;
      assert EvolveGrowth(init, h, w, nbSize, rule, steps, pick) == Ok(prev + [next]);
    }
  }

  /** Every grain id of `l` is 0 or occurs in `src`. */
  predicate GrainsFrom(l: Lattices, src: Grid, h: nat, w: nat)
    requires Shaped(l, h, w)
  {
    forall r, c :: 0 <= r < h && 0 <= c < w ==> l.grain[r][c] == 0 || InGrid(src, l.grain[r][c])
  }

  /** A step keeps every grain id drawn from `src`. */
  lemma StepGrainsFrom(l: Lattices, src: Grid, h: nat, w: nat, k: nat, rule: int, pick: (nat, nat) -> nat)
    requires Shaped(l, h, w) && Expandable(l.state, k)
    requires GrainsFrom(l, src, h, w)
    requires GrowthStep(l, h, w, k, rule, pick).Ok?
    ensures GrainsFrom(GrowthStep(l, h, w, k, rule, pick).value, src, h, w)
  {
    var next := GrowthStep(l, h, w, k, rule, pick).value;
    forall r, c | 0 <= r < h && 0 <= c < w && next.grain[r][c] != 0 ensures InGrid(src, next.grain[r][c]) {
      var r', c' := GrainSource(l, h, w, k, rule, pick, r, c);
      assert l.grain[r'][c'] == next.grain[r][c];
    }
  }

  /** No snapshot holds a grain id that the initial grain lattice lacks. */
  lemma {:induction false} EvolveKeepsGrains(init: Lattices, h: nat, w: nat, nbSize: nat, rule: int, steps: nat, pick: (nat, nat, nat) -> nat, t: nat)
    requires Shaped(init, h, w) && Expandable(init.state, Order(nbSize))
    requires EvolveGrowth(init, h, w, nbSize, rule, steps, pick).Ok?
    requires t <= steps
    ensures GrainsFrom(EvolveGrowth(init, h, w, nbSize, rule, steps, pick).value[t], init.grain, h, w)
  {
    var hs := EvolveGrowth(init, h, w, nbSize, rule, steps, pick).value;
    if t == 0 {
      forall r, c | 0 <= r < h && 0 <= c < w ensures InGrid(init.grain, init.grain[r][c]) {
        assert init.grain[r][c] in init.grain[r];
      }
    } else {
      EvolveKeepsGrains(init, h, w, nbSize, rule, steps, pick, t - 1);
      SnapshotStep(init, h, w, nbSize, rule, steps, pick, t);
      StepGrainsFrom(hs[t - 1], init.grain, h, w, Order(nbSize), rule, StepPicks(pick, t));
    }
  }

  /** Snapshot `t` is the step from snapshot `t - 1`. */
  lemma SnapshotStep(init: Lattices, h: nat, w: nat, nbSize: nat, rule: int, steps: nat, pick: (nat, nat, nat) -> nat, t: nat)
    requires Shaped(init, h, w) && Expandable(init.state, Order(nbSize))
    requires EvolveGrowth(init, h, w, nbSize, rule, steps, pick).Ok?
    requires 1 <= t <= steps
    ensures var hs := EvolveGrowth(init, h, w, nbSize, rule, steps, pick).value;
      && Shaped(hs[t - 1], h, w) && Expandable(hs[t - 1].state, Order(nbSize))
      && GrowthStep(hs[t - 1], h, w, Order(nbSize), rule, StepPicks(pick, t)) == Ok(hs[t])
  {
  }

  /** A nonzero grain after a step sits somewhere on the lattice before it. */
  lemma GrainSource(l: Lattices, h: nat, w: nat, k: nat, rule: int, pick: (nat, nat) -> nat, r: nat, c: nat) returns (r': nat, c': nat)
    requires Shaped(l, h, w) && Expandable(l.state, k)
    requires GrowthStep(l, h, w, k, rule, pick).Ok?
    requires r < h && c < w && GrowthStep(l, h, w, k, rule, pick).value.grain[r][c] != 0
    ensures r' < h && c' < w && l.grain[r'][c'] == GrowthStep(l, h, w, k, rule, pick).value.grain[r][c]
  {
    var g := GrowthStep(l, h, w, k, rule, pick).value.grain[r][c];
    GrowthKeepsGrains(l, h, w, k, rule, pick, r, c);
    r' :| 0 <= r' < |l.grain| && g in l.grain[r'];
    c' :| 0 <= c' < |l.grain[r']| && l.grain[r'][c'] == g;
  }

}

=== FILE: numeric.dfy ===
/** Integer helpers: powers of two, bits, MSB-first binary digit strings,
    sums, round-half-to-even and a few facts about Euclidean modulo. */
module Numeric {

  function Pow2(n: nat): (r: nat)
    ensures r >= 1
  {
    if n == 0 then 1 else 2 * Pow2(n - 1)
  }

  /** Bit `j` of `n`, counting from the least significant bit. */
  function Bit(n: nat, j: nat): nat
  {
    if j == 0 then n % 2 else Bit(n / 2, j - 1)
  }

  predicate IsBinary(s: seq<int>)
  {
    forall i :: 0 <= i < |s| ==> s[i] == 0 || s[i] == 1
  }

  /** The number a digit sequence denotes when read as base 2, most
      significant digit first. */
  function Value(s: seq<int>): nat
    requires IsBinary(s)
  {
    if |s| == 0 then 0
    else
      var init := s[..|s| - 1];
      assert forall i :: 0 <= i < |init| ==> init[i] == s[i];
      2 * Value(init) + s[|s| - 1]
  }

  /** The digits of `np.binary_repr(n, width)`, most significant first, for an
      `n` that fits in `width` bits. */
  function BinaryRepr(n: nat, width: nat): (r: seq<int>)
    requires n < Pow2(width)
    ensures |r| == width
    ensures IsBinary(r)
  {
    if width == 0 then [] else BinaryRepr(n / 2, width - 1) + [n % 2]
  }

  /** Reading the representation back gives the number. */
  lemma {:induction false} ValueOfBinaryRepr(n: nat, width: nat)
    requires n < Pow2(width)
    ensures Value(BinaryRepr(n, width)) == n
  {
    if width > 0 {
      var r := BinaryRepr(n, width);
      assert r[..width - 1] == BinaryRepr(n / 2, width - 1);
      ValueOfBinaryRepr(n / 2, width - 1);
    }
  }

  /** Every binary digit string is the representation of its own value, so
      the representation is onto the binary strings of its width. */
  lemma {:induction false} BinaryReprOfValue(s: seq<int>)
    requires IsBinary(s)
    ensures 0 <= Value(s) < Pow2(|s|)
    ensures BinaryRepr(Value(s), |s|) == s
  {
    if |s| > 0 {
      var p := s[..|s| - 1];
      assert IsBinary(p) by {
        forall i | 0 <= i < |p| ensures p[i] == 0 || p[i] == 1 {
          assert p[i] == s[i];
        }
      }
      BinaryReprOfValue(p);
      assert s == p + [s[|s| - 1]];
    }
  }

  /** Two binary strings of the same length with the same value are equal. */
  lemma ValueInjective(a: seq<int>, b: seq<int>)
    requires IsBinary(a) && IsBinary(b) && |a| == |b|
    requires Value(a) == Value(b)
    ensures a == b
  {
    BinaryReprOfValue(a);
    BinaryReprOfValue(b);
  }

  /** Digit `i` (from the most significant end) of the representation is bit
      `width - 1 - i` of the number. */
  lemma {:induction false} BinaryReprDigit(n: nat, width: nat, i: nat)
    requires n < Pow2(width)
    requires i < width
    ensures BinaryRepr(n, width)[i] == Bit(n, width - 1 - i)
  {
    if i < width - 1 {
      BinaryReprDigit(n / 2, width - 1, i);
    }
  }

  lemma {:induction false} BitOfZero(j: nat)
    ensures Bit(0, j) == 0
  {
    if j > 0 {
      BitOfZero(j - 1);
    }
  }

  /** The representation of zero has no digit set. */
  lemma {:induction false} BinaryReprOfZero(width: nat, i: nat)
    requires i < width
    ensures BinaryRepr(0, width)[i] == 0
  {
    if i < width - 1 {
      BinaryReprOfZero(width - 1, i);
    }
  }

  /** Every one of the low `k` bits of `2^k - 1` is set. */
  lemma {:induction false} BitOfAllOnes(k: nat, j: nat)
    requires j < k
    ensures Bit(Pow2(k) - 1, j) == 1
  {
    if j > 0 {
      var half := Pow2(k - 1);
      assert Pow2(k) - 1 == (half - 1) * 2 + 1;
      QuotientRemainder(half - 1, 1, 2);
      assert Bit(Pow2(k) - 1, j) == Bit(half - 1, j - 1);
      BitOfAllOnes(k - 1, j - 1);
    }
  }

  function Sum(s: seq<int>): int
  {
    if |s| == 0 then 0 else Sum(s[..|s| - 1]) + s[|s| - 1]
  }

  lemma {:induction false} SumAppend(a: seq<int>, b: seq<int>)
    ensures Sum(a + b) == Sum(a) + Sum(b)
  {
    if |b| > 0 {
      assert (a + b)[..|a + b| - 1] == a + b[..|b| - 1];
      SumAppend(a, b[..|b| - 1]);
    } else {
      assert a + b == a;
    }
  }

  /** A 0/1 sequence with a positive sum holds a 1 somewhere. */
  lemma {:induction false} PositiveBinarySumHasOne(s: seq<int>)
    requires IsBinary(s)
    requires Sum(s) >= 1
    ensures exists p :: 0 <= p < |s| && s[p] == 1
  {
    var q := s[..|s| - 1];
    if s[|s| - 1] != 1 {
      assert IsBinary(q) by {
        forall i | 0 <= i < |q| ensures q[i] == 0 || q[i] == 1 {
          assert q[i] == s[i];
        }
      }
      PositiveBinarySumHasOne(q);
      var p :| 0 <= p < |q| && q[p] == 1;
      assert s[p] == 1;
    }
  }

  /** Python's `round` on a real: the nearest integer, ties to the even one. */
  function RoundHalfEven(x: real): (r: int)
    ensures x - 0.5 <= r as real <= x + 0.5
    ensures (r as real == x - 0.5 || r as real == x + 0.5) ==> r % 2 == 0
  {
    var f := x.Floor;
    var d := x - f as real;
    if d < 0.5 then f
    else if d > 0.5 then f + 1
    else if f % 2 == 0 then f
    else f + 1
  }

  lemma ModOfNegative(x: int, n: int)
    requires n > 0
    requires -n <= x < 0
    ensures x % n == x + n
  {
  }

  lemma ModOfSmall(x: int, n: int)
    requires n > 0
    requires 0 <= x < n
    ensures x % n == x
  {
  }

  lemma ModOfLarge(x: int, n: int)
    requires n > 0
    requires n <= x < 2 * n
    ensures x % n == x - n
  {
  }

  /** Row and column of the flattened index `p` of a `k`-by-`k` block stay
      inside the block. */
  lemma DivModBounds(p: int, k: int)
    requires k > 0
    requires 0 <= p < k * k
    ensures 0 <= p / k < k
    ensures 0 <= p % k < k
  {
  }

  /** Division by `d` recovers quotient and remainder. */
  lemma QuotientRemainder(q: nat, r: nat, d: nat)
    requires r < d
    ensures (q * d + r) / d == q && (q * d + r) % d == r
  {
    var x := q * d + r;
    var a, b := x / d, x % d;
    assert d * a + b == x;
    assert d * (a - q) == r - b by {
      assert d * (a - q) == d * a - d * q;
    }
    if a > q {
      MulAtLeast(d, a - q);
    } else if a < q {
      MulAtLeast(d, q - a);
    }
  }

  lemma MulAtLeast(d: int, m: int)
    requires d > 0 && m >= 1
    ensures d * m >= d
  {
  }
}

=== FILE: text.dfy ===
/** The few string operations the boundary-condition argument needs:
    ASCII lower-casing, substring search, splitting on a separator, and
    decimal digits. */
module Text {

  function LowerChar(c: char): char
  {
    if 'A' <= c <= 'Z' then (c as int + 32) as char else c
  }

  /** `str.lower()` restricted to ASCII letters. */
  function Lower(s: string): string
  {
    seq(|s|, i requires 0 <= i < |s| => LowerChar(s[i]))
  }

  /** Python's `t in s` for strings. */
  predicate Contains(s: string, t: string)
  {
    |t| <= |s| && (s[..|t|] == t || Contains(s[1..], t))
  }

  /** `str.split(sep)` with a one-character separator. */
  function Split(s: string, sep: char): (fields: seq<string>)
    ensures |fields| >= 1
    ensures forall i :: 0 <= i < |fields| ==> sep !in fields[i]
  {
    if |s| == 0 then [""]
    else
      var rest := Split(s[1..], sep);
      if s[0] == sep then [""] + rest else [[s[0]] + rest[0]] + rest[1..]
  }

  /** Fields glued back together with the separator between them. */
  function Join(fields: seq<string>, sep: char): string
    requires |fields| >= 1
  {
    if |fields| == 1 then fields[0] else fields[0] + [sep] + Join(fields[1..], sep)
  }

  /** Splitting loses nothing: joining the fields restores the string. */
  lemma {:induction false} JoinSplit(s: string, sep: char)
    ensures Join(Split(s, sep), sep) == s
  {
    if |s| > 0 {
      var rest := Split(s[1..], sep);
      JoinSplit(s[1..], sep);
      if s[0] != sep {
        var fields := Split(s, sep);
        assert fields[1..] == rest[1..];
        if |rest| == 1 {
          assert Join(fields, sep) == [s[0]] + rest[0];
        } else {
          assert Join(rest, sep) == rest[0] + [sep] + Join(rest[1..], sep);
        }
        assert s == [s[0]] + s[1..];
      } else {
        assert s == [sep] + s[1..];
      }
    }
  }

  /** A field without the separator, followed by the separator, becomes the
      first field of the split. */
  lemma {:induction false} SplitAfterField(a: string, sep: char, b: string)
    requires sep !in a
    ensures Split(a + [sep] + b, sep) == [a] + Split(b, sep)
  {
    if |a| > 0 {
      SplitAfterField(a[1..], sep, b);
      assert (a + [sep] + b)[1..] == a[1..] + [sep] + b;
      assert (a + [sep] + b)[0] == a[0] != sep;
      assert a == [a[0]] + a[1..];
    } else {
      assert a + [sep] + b == [sep] + b;
    }
  }

  /** A string without the separator splits into itself. */
  lemma {:induction false} SplitNoSeparator(a: string, sep: char)
    requires sep !in a
    ensures Split(a, sep) == [a]
  {
    if |a| > 0 {
      SplitNoSeparator(a[1..], sep);
      assert a == [a[0]] + a[1..];
    }
  }

  /** A string that contains `t` still contains it with anything appended. */
  lemma {:induction false} ContainsAppend(a: string, b: string, t: string)
    requires Contains(a, t)
    ensures Contains(a + b, t)
  {
    assert (a + b)[..|t|] == a[..|t|];
    if a[..|t|] != t {
      ContainsAppend(a[1..], b, t);
      assert (a + b)[1..] == a[1..] + b;
    }
  }

  /** A string that contains a non-empty `t` holds the first character of
      `t`. */
  lemma {:induction false} ContainsFirst(s: string, t: string)
    requires |t| > 0
    ensures Contains(s, t) ==> t[0] in s
  {
    if |t| <= |s| {
      if s[..|t|] == t {
        assert s[0] == t[0];
      } else {
        ContainsFirst(s[1..], t);
        assert s == [s[0]] + s[1..];
      }
    }
  }

  predicate IsDigit(c: char)
  {
    '0' <= c <= '9'
  }

  /** A non-empty run of ASCII decimal digits. */
  predicate IsDigits(s: string)
  {
    |s| > 0 && forall i :: 0 <= i < |s| ==> IsDigit(s[i])
  }

  function DigitChar(d: nat): char
    requires d < 10
  {
    ('0' as int + d) as char
  }

  /** The decimal value of a digit string, most significant digit first. */
  function ParseDigits(s: string): nat
    requires forall i :: 0 <= i < |s| ==> IsDigit(s[i])
  {
    if |s| == 0 then 0
    else
      var last := s[|s| - 1];
      assert IsDigit(last);
      10 * ParseDigits(s[..|s| - 1]) + (last as int - '0' as int)
  }

  /** `str(n)` for a natural number. */
  function ShowNat(n: nat): (s: string)
    ensures IsDigits(s)
  {
    if n < 10 then [DigitChar(n)] else ShowNat(n / 10) + [DigitChar(n % 10)]
  }

  /** Printing a number and parsing it back gives the number. */
  lemma {:induction false} ParseShowNat(n: nat)
    ensures ParseDigits(ShowNat(n)) == n
  {
    if n >= 10 {
      var s := ShowNat(n);
      assert s[..|s| - 1] == ShowNat(n / 10);
      ParseShowNat(n / 10);
    }
  }
}

=== FILE: wolfram.dfy ===
/** The 1D Wolfram automaton of `1D-Wolfram/wolframCA_functions.py`: the
    centred initial state, the rule table built from a rule number, boundary
    padding, and the synchronous time-stepping loop that looks every cell's
    neighbourhood up in the table. Cells are binary (`n_states == 2`). */
module Wolfram {
  import opened Wrappers
  import opened Numeric
  import opened Text
  import opened Lattice

  /** Sum of a sequence that is 1 at index `m` and 0 elsewhere. */
  lemma {:induction false} SumOfSingleOne(s: seq<int>, m: int)
    requires forall i :: 0 <= i < |s| ==> s[i] == (if i == m then 1 else 0)
    ensures Sum(s) == (if 0 <= m < |s| then 1 else 0)
  {
    if |s| > 0 {
      SumOfSingleOne(s[..|s| - 1], m);
    }
  }

  /** The "centre" initialisation: `sys_size` cells, all 0 except cell
      `sys_size / 2`, which is 1. A size below 1 makes numpy raise. */
  function CentredInit(size: int): (r: Option<seq<int>>)
    ensures r.Some? <==> size >= 1
    ensures r.Some? ==> |r.value| == size && IsBinary(r.value)
    ensures r.Some? ==> Sum(r.value) == 1 && r.value[size / 2] == 1
  {
    if size < 1 then None
    else
      var s := seq(size, i requires 0 <= i < size => if i == size / 2 then 1 else 0);
      SumOfSingleOne(s, size / 2);
      Some(s)
  }

  /** `input_pattern` (one row per neighbourhood configuration) and the
      parallel `output_pattern` (the new centre state for that row). */
  datatype RuleTable = RuleTable(inputs: seq<seq<int>>, outputs: seq<int>)

  /** Rule numbers that `np.binary_repr` writes in `2^nbSize` digits. */
  predicate ValidRule(rule: int, nbSize: nat)
  {
    0 <= rule < Pow2(Pow2(nbSize))
  }

  /** `f_WolframCA_rule_lookup` for two states: the output column is the
      rule number in binary, most significant digit first, over all `2^nbSize`
      configurations; row `i` of the input column is configuration
      `2^nbSize - 1 - i` in binary (see TableInputs). */
  function BuildRuleTable(rule: nat, nbSize: nat): (t: RuleTable)
    requires ValidRule(rule, nbSize)
    ensures |t.outputs| == Pow2(nbSize) && IsBinary(t.outputs) && Value(t.outputs) == rule
    ensures |t.inputs| == Pow2(nbSize)
  {
    var configs := Pow2(nbSize);
    ValueOfBinaryRepr(rule, configs);
    RuleTable(InputRows(nbSize), BinaryRepr(rule, configs))
  }

  /** The input column: every `nbSize`-digit configuration, counting down
      from all ones. */
  function InputRows(nbSize: nat): (rows: seq<seq<int>>)
    ensures |rows| == Pow2(nbSize)
  {
    var configs := Pow2(nbSize);
    seq(configs, i requires 0 <= i < configs => BinaryRepr(configs - 1 - i, nbSize))
  }

  /** Row `i` of the input column is the `nbSize`-digit configuration whose
      value is `2^nbSize - 1 - i`: the rows count down from all ones. */
  lemma TableInputs(rule: nat, nbSize: nat, i: nat)
    requires ValidRule(rule, nbSize)
    requires i < Pow2(nbSize)
    ensures var row := BuildRuleTable(rule, nbSize).inputs[i];
      |row| == nbSize && IsBinary(row) && Value(row) == Pow2(nbSize) - 1 - i
  {
    assert BuildRuleTable(rule, nbSize).inputs == InputRows(nbSize);
    InputRowValue(nbSize, i);
  }

  lemma InputRowValue(nbSize: nat, i: nat)
    requires i < Pow2(nbSize)
    ensures var row := InputRows(nbSize)[i];
      |row| == nbSize && IsBinary(row) && Value(row) == Pow2(nbSize) - 1 - i
  {
    var n := Pow2(nbSize) - 1 - i;
    assert InputRows(nbSize)[i] == BinaryRepr(n, nbSize);
    ValueOfBinaryRepr(n, nbSize);
  }

  /** The input column enumerates every binary neighbourhood exactly once:
      a binary window of the right length matches row `i` if and only if `i`
      is `2^nbSize - 1` minus the window's value. */
  lemma RuleTableEnumerates(rule: nat, nbSize: nat, w: seq<int>)
    requires ValidRule(rule, nbSize)
    requires IsBinary(w) && |w| == nbSize
    ensures var t := BuildRuleTable(rule, nbSize);
      0 <= Pow2(nbSize) - 1 - Value(w) < |t.inputs| &&
      forall i :: 0 <= i < |t.inputs| ==> (t.inputs[i] == w <==> i == Pow2(nbSize) - 1 - Value(w))
  {
    var t := BuildRuleTable(rule, nbSize);
    BinaryReprOfValue(w);
    forall i | 0 <= i < |t.inputs| ensures t.inputs[i] == w <==> i == Pow2(nbSize) - 1 - Value(w) {
      TableInputs(rule, nbSize, i);
      if i == Pow2(nbSize) - 1 - Value(w) {
        ValueInjective(t.inputs[i], w);
      }
    }
  }

  /** The per-cell scan over the first `n` rows: the last row equal to the
      window supplies the output; with no equal row the cell keeps the 0 the
      new array was created with. */
  function Scan(inputs: seq<seq<int>>, outputs: seq<int>, w: seq<int>, n: nat): (r: int)
    requires n <= |inputs| == |outputs|
    ensures (forall i :: 0 <= i < n ==> inputs[i] != w) ==> r == 0
    ensures forall i :: 0 <= i < n && inputs[i] == w && (forall j :: i < j < n ==> inputs[j] != w) ==> r == outputs[i]
    ensures r == 0 || r in outputs
  {
    if n == 0 then 0
    else if inputs[n - 1] == w then outputs[n - 1]
    else Scan(inputs, outputs, w, n - 1)
  }

  /** The new state of a cell whose neighbourhood is `w`. */
  function Lookup(t: RuleTable, w: seq<int>): (r: int)
    requires |t.inputs| == |t.outputs|
    ensures r == 0 || r in t.outputs
  {
    Scan(t.inputs, t.outputs, w, |t.inputs|)
  }

  /** For a binary neighbourhood, the table returns bit `Value(w)` of the rule
      number: the defining property of a Wolfram rule. */
  lemma LookupBinaryWindow(rule: nat, nbSize: nat, w: seq<int>)
    requires ValidRule(rule, nbSize)
    requires IsBinary(w) && |w| == nbSize
    ensures Lookup(BuildRuleTable(rule, nbSize), w) == Bit(rule, Value(w))
  {
    var t := BuildRuleTable(rule, nbSize);
    var configs := Pow2(nbSize);
    RuleTableEnumerates(rule, nbSize, w);
    var i := configs - 1 - Value(w);
    BinaryReprDigit(rule, configs, i);
  }

  /** A window that is not a binary string of the table's width (one holding a
      fixed boundary value other than 0 and 1, or one of the wrong length)
      matches no row and yields 0. */
  lemma LookupUnmatched(rule: nat, nbSize: nat, w: seq<int>)
    requires ValidRule(rule, nbSize)
    requires !(IsBinary(w) && |w| == nbSize)
    ensures Lookup(BuildRuleTable(rule, nbSize), w) == 0
  {
    var t := BuildRuleTable(rule, nbSize);
    forall i | 0 <= i < |t.inputs| ensures t.inputs[i] != w {
      TableInputs(rule, nbSize, i);
    }
  }

  /** The boundary condition: periodic wrap, or fixed left and right values. */
  datatype Boundary = Periodic | Fixed(left: int, right: int)

  /** A boundary that only adds binary cells. */
  predicate BinaryBoundary(b: Boundary)
  {
    b.Periodic? || ((b.left == 0 || b.left == 1) && (b.right == 0 || b.right == 1))
  }

  /** The orders of neighbourhood the model pads by. For a periodic boundary
      the order must not exceed the state: beyond it the source's slices
      `[-k:]` and `[0:k]` stop at the whole state, so the padding is no
      longer a wrap and the next snapshot changes length. */
  predicate Paddable(s: seq<int>, b: Boundary, k: nat)
  {
    1 <= k && (b.Periodic? ==> k <= |s|)
  }

  /** `sys_state_old_bc`: the state with `k` boundary cells on each side. */
  function Pad(s: seq<int>, b: Boundary, k: nat): (p: seq<int>)
    requires Paddable(s, b, k)
    ensures |p| == |s| + 2 * k
    ensures b.Fixed? ==> forall j :: 0 <= j < |p| ==>
      p[j] == (if j < k then b.left else if j < |s| + k then s[j - k] else b.right)
  {
    match b
    case Periodic => PeriodicPad(s, k)
    case Fixed(left, right) => seq(k, _ => left) + s + seq(k, _ => right)
  }

  /** Padding a binary state with a binary boundary gives a binary sequence. */
  lemma PadBinary(s: seq<int>, b: Boundary, k: nat)
    requires Paddable(s, b, k)
    requires IsBinary(s) && BinaryBoundary(b)
    ensures IsBinary(Pad(s, b, k))
  {
    var p := Pad(s, b, k);
    if b.Periodic? {
      forall j | 0 <= j < |p| ensures p[j] == 0 || p[j] == 1 {
        if |s| > 0 {
          PeriodicPadTorus(s, k, j);
        }
      }
    }
  }

  /** One time step: every cell `i` looks up the `2k+1` padded cells centred
      on it (`sys_state_old_bc[i : i+2k+1]` in cropped coordinates); the
      border of the new padded array is cropped away. */
  function Step(s: seq<int>, t: RuleTable, b: Boundary, k: nat): (n: seq<int>)
    requires Paddable(s, b, k) && |t.inputs| == |t.outputs|
    ensures |n| == |s|
    ensures forall i :: 0 <= i < |n| ==> n[i] == 0 || n[i] in t.outputs
  {
    var p := Pad(s, b, k);
    var n := seq(|s|, i requires 0 <= i < |s| => Lookup(t, p[i..i + 2 * k + 1]));
    assert forall i :: 0 <= i < |n| ==> n[i] == Lookup(t, p[i..i + 2 * k + 1]);
    n
  }

  /** The snapshot list: `steps + 1` states, the first the initial one and
      each later one computed from its predecessor alone. */
  function Evolve(init: seq<int>, t: RuleTable, b: Boundary, k: nat, steps: nat): (h: seq<seq<int>>)
    requires Paddable(init, b, k) && |t.inputs| == |t.outputs|
    ensures |h| == steps + 1 && h[0] == init
    ensures forall i :: 0 <= i < |h| ==> |h[i]| == |init|
    ensures forall i :: 1 <= i < |h| ==> h[i] == Step(h[i - 1], t, b, k)
  {
    if steps == 0 then [init]
    else
      var prev := Evolve(init, t, b, k, steps - 1);
      prev + [Step(prev[steps - 1], t, b, k)]
  }

  /** The arguments `f_evolve_WolframCA` handles: a neighbourhood of order at
      least 1, a rule that fits its table, and periodic padding no wider than
      the state. */
  predicate WolframArgs(init: seq<int>, nbSize: nat, b: Boundary, rule: int)
  {
    nbSize >= 3 && ValidRule(rule, nbSize) && Paddable(init, b, Order(nbSize))
  }

  /** `f_evolve_WolframCA` from a given initial state. */
  function EvolveWolfram(init: seq<int>, nbSize: nat, b: Boundary, rule: nat, steps: nat): (h: seq<seq<int>>)
    requires WolframArgs(init, nbSize, b, rule)
    ensures |h| == steps + 1 && h[0] == init
    ensures forall i :: 0 <= i < |h| ==> |h[i]| == |init|
  {
    Evolve(init, BuildRuleTable(rule, nbSize), b, Order(nbSize), steps)
  }

  /** Under periodic boundaries the window of cell `i` is its ring
      neighbourhood: the cells `i - k .. i + k` taken modulo the size. */
  lemma StepPeriodicNeighbourhood(s: seq<int>, t: RuleTable, k: nat, i: nat)
    requires Paddable(s, Periodic, k) && |t.inputs| == |t.outputs|
    requires i < |s|
    ensures Step(s, t, Periodic, k)[i]
      == Lookup(t, seq(2 * k + 1, m requires 0 <= m < 2 * k + 1 => s[(i + m - k) % |s|]))
  {
    var p := Pad(s, Periodic, k);
    var ring := seq(2 * k + 1, m requires 0 <= m < 2 * k + 1 => s[(i + m - k) % |s|]);
    forall m | 0 <= m < 2 * k + 1 ensures p[i..i + 2 * k + 1][m] == ring[m] {
      PeriodicPadTorus(s, k, i + m);
    }
    assert p[i..i + 2 * k + 1] == ring;
  }

  /** Cell `i` of a step is the table's answer for the padded window of
      `2k+1` cells starting at padded position `i`. */
  lemma StepAt(s: seq<int>, t: RuleTable, b: Boundary, k: nat, i: nat)
    requires Paddable(s, b, k) && |t.inputs| == |t.outputs|
    requires i < |s|
    ensures Step(s, t, b, k)[i] == Lookup(t, Pad(s, b, k)[i..i + 2 * k + 1])
  {
  }

  /** With an odd neighbourhood, a binary state and a binary boundary, each
      new cell is the rule number's bit selected by its (binary) neighbourhood. */
  lemma StepIsRuleBit(init: seq<int>, nbSize: nat, b: Boundary, rule: nat, i: nat)
    requires WolframArgs(init, nbSize, b, rule) && nbSize % 2 == 1
    requires IsBinary(init) && BinaryBoundary(b)
    requires i < |init|
    ensures var k := Order(nbSize);
      var w := Pad(init, b, k)[i..i + nbSize];
      && IsBinary(w)
      && Step(init, BuildRuleTable(rule, nbSize), b, k)[i] == Bit(rule, Value(w))
  {
    var k := Order(nbSize);
    assert 2 * k + 1 == nbSize;
    var p := Pad(init, b, k);
    PadBinary(init, b, k);
    var w := p[i..i + nbSize];
    assert IsBinary(w) by {
      forall m | 0 <= m < |w| ensures w[m] == 0 || w[m] == 1 {
        assert w[m] == p[i + m];
      }
    }
    var t := BuildRuleTable(rule, nbSize);
    StepAt(init, t, b, k, i);
    LookupBinaryWindow(rule, nbSize, w);
  }

  /** Under the all-ones rule a binary state and boundary give all ones. */
  lemma StepUnderAllOnes(s: seq<int>, nbSize: nat, b: Boundary, rule: nat, i: nat)
    requires rule == Pow2(Pow2(nbSize)) - 1
    requires WolframArgs(s, nbSize, b, rule) && nbSize % 2 == 1
    requires IsBinary(s) && BinaryBoundary(b)
    requires i < |s|
    ensures Step(s, BuildRuleTable(rule, nbSize), b, Order(nbSize))[i] == 1
  {
    var w := Pad(s, b, Order(nbSize))[i..i + nbSize];
    StepIsRuleBit(s, nbSize, b, rule, i);
    AllOnesBit(nbSize, rule, w);
  }

  /** Every configuration of the all-ones rule has output 1. */
  lemma AllOnesBit(nbSize: nat, rule: nat, w: seq<int>)
    requires rule == Pow2(Pow2(nbSize)) - 1
    requires IsBinary(w) && |w| == nbSize
    ensures Bit(rule, Value(w)) == 1
  {
    BinaryReprOfValue(w);
    BitOfAllOnes(Pow2(nbSize), Value(w));
  }

  /** Snapshot `t` of the evolution is one step on from snapshot `t - 1`. */
  lemma EvolveWolframStep(init: seq<int>, nbSize: nat, b: Boundary, rule: nat, steps: nat, t: nat)
    requires WolframArgs(init, nbSize, b, rule)
    requires 1 <= t <= steps
    ensures var h := EvolveWolfram(init, nbSize, b, rule, steps);
      Paddable(h[t - 1], b, Order(nbSize)) &&
      h[t] == Step(h[t - 1], BuildRuleTable(rule, nbSize), b, Order(nbSize))
  {
  }

  /** Every snapshot after the first is binary, whatever the initial state and
      boundary values: a cell gets a rule bit or the default 0. */
  lemma SnapshotsAreBinary(init: seq<int>, nbSize: nat, b: Boundary, rule: nat, steps: nat, t: nat)
    requires WolframArgs(init, nbSize, b, rule)
    requires 1 <= t <= steps
    ensures IsBinary(EvolveWolfram(init, nbSize, b, rule, steps)[t])
  {
    var table := BuildRuleTable(rule, nbSize);
    var h := EvolveWolfram(init, nbSize, b, rule, steps);
    var n := h[t];
    assert n == Step(h[t - 1], table, b, Order(nbSize));
    forall i | 0 <= i < |n| ensures n[i] == 0 || n[i] == 1 {
      if n[i] != 0 {
        var j :| 0 <= j < |table.outputs| && table.outputs[j] == n[i];
      }
    }
  }

  /** Rule 0 empties the lattice: every snapshot after the first is all 0. */
  lemma RuleZeroClears(init: seq<int>, nbSize: nat, b: Boundary, steps: nat, t: nat, i: nat)
    requires WolframArgs(init, nbSize, b, 0)
    requires 1 <= t <= steps && i < |init|
    ensures EvolveWolfram(init, nbSize, b, 0, steps)[t][i] == 0
  {
    var table := BuildRuleTable(0, nbSize);
    var h := EvolveWolfram(init, nbSize, b, 0, steps);
    assert h[t] == Step(h[t - 1], table, b, Order(nbSize));
    forall j | 0 <= j < |table.outputs| ensures table.outputs[j] == 0 {
      BinaryReprOfZero(Pow2(nbSize), j);
    }
  }

  /** Rule `2^(2^nbSize) - 1` fills the lattice: with an odd neighbourhood, a
      binary initial state and a binary boundary, every snapshot after the
      first is all 1. */
  lemma RuleAllOnesFills(init: seq<int>, nbSize: nat, b: Boundary, rule: nat, steps: nat, t: nat, i: nat)
    requires rule == Pow2(Pow2(nbSize)) - 1
    requires WolframArgs(init, nbSize, b, rule) && nbSize % 2 == 1
    requires IsBinary(init) && BinaryBoundary(b)
    requires 1 <= t <= steps && i < |init|
    ensures EvolveWolfram(init, nbSize, b, rule, steps)[t][i] == 1
  {
    var h := EvolveWolfram(init, nbSize, b, rule, steps);
    if t - 1 >= 1 {
      SnapshotsAreBinary(init, nbSize, b, rule, steps, t - 1);
    }
    EvolveWolframStep(init, nbSize, b, rule, steps, t);
    StepUnderAllOnes(h[t - 1], nbSize, b, rule, i);
  }

  /** An even neighbourhood size never matches: the window has `2k+1 =
      nbSize - 1` cells while every row has `nbSize`, so every snapshot after
      the first is all 0. */
  lemma EvenNeighbourhoodClears(init: seq<int>, nbSize: nat, b: Boundary, rule: nat, steps: nat, t: nat, i: nat)
    requires WolframArgs(init, nbSize, b, rule) && nbSize % 2 == 0
    requires 1 <= t <= steps && i < |init|
    ensures EvolveWolfram(init, nbSize, b, rule, steps)[t][i] == 0
  {
    var h := EvolveWolfram(init, nbSize, b, rule, steps);
    EvolveWolframStep(init, nbSize, b, rule, steps, t);
    EvenStepClears(h[t - 1], nbSize, b, rule, i);
  }

  lemma EvenStepClears(s: seq<int>, nbSize: nat, b: Boundary, rule: nat, i: nat)
    requires nbSize >= 3 && ValidRule(rule, nbSize) && nbSize % 2 == 0
    requires Paddable(s, b, Order(nbSize)) && i < |s|
    ensures Step(s, BuildRuleTable(rule, nbSize), b, Order(nbSize))[i] == 0
  {
    var k := Order(nbSize);
    OrderOfEven(nbSize);
    var t := BuildRuleTable(rule, nbSize);
    StepAt(s, t, b, k, i);
    var w := Pad(s, b, k)[i..i + 2 * k + 1];
    LookupUnmatched(rule, nbSize, w);
  }

  /** An even neighbourhood size loses one cell to the order's rounding. */
  lemma OrderOfEven(nbSize: nat)
    requires nbSize >= 2 && nbSize % 2 == 0
    ensures 2 * Order(nbSize) + 1 == nbSize - 1
  {
  }

  /** The documented example: rule 110 over three-cell neighbourhoods has the
      output column 0 1 1 0 1 1 1 0. */
  lemma Rule110Outputs()
    ensures BuildRuleTable(110, 3).outputs == [0, 1, 1, 0, 1, 1, 1, 0]
  {
    assert Pow2(3) == 8;
    assert Pow2(8) == 256;
    Repr110();
  }

  /** The eight-digit representation of 110, built up digit by digit. */
  lemma Repr110()
    ensures BinaryRepr(110, 8) == [0, 1, 1, 0, 1, 1, 1, 0]
  {
    assert Pow2(8) == 256;
    var r3 := BinaryRepr(3, 3);
    assert r3 == [0, 1, 1];
    var r5 := BinaryRepr(13, 5);
    assert r5 == BinaryRepr(6, 4) + [1];
    assert BinaryRepr(6, 4) == r3 + [0];
    assert r5 == [0, 1, 1, 0, 1];
    assert BinaryRepr(27, 6) == r5 + [1];
    assert BinaryRepr(55, 7) == BinaryRepr(27, 6) + [1];
    assert BinaryRepr(110, 8) == BinaryRepr(55, 7) + [0];
  }

  /** The end-to-end example: rule 90 (each cell becomes the exclusive or of
      its two neighbours) takes the centred 7-cell state one step, under
      periodic boundaries, to 0 0 1 0 1 0 0. */
  lemma Rule90CentredStep()
    ensures CentredInit(7) == Some([0, 0, 0, 1, 0, 0, 0])
    ensures EvolveWolfram([0, 0, 0, 1, 0, 0, 0], 3, Periodic, 90, 1)[1] == [0, 0, 1, 0, 1, 0, 0]
  {
    var s := [0, 0, 0, 1, 0, 0, 0];
    assert CentredInit(7).value == s;
    Rule90Step(s, 90, [0, 0, 1, 0, 1, 0, 0]);
    EvolveWolframStep(s, 3, Periodic, 90, 1, 1);
  }

  /** Rule 90 on the centred state, with the state and rule held in variables
      so that the table is not expanded literal by literal. */
  lemma Rule90Step(s: seq<int>, rule: nat, expected: seq<int>)
    requires s == [0, 0, 0, 1, 0, 0, 0] && rule == 90 && expected == [0, 0, 1, 0, 1, 0, 0]
    ensures ValidRule(rule, 3)
    ensures Step(s, BuildRuleTable(rule, 3), Periodic, 1) == expected
  {
    Rule90IsRingXor(s, rule);
    CentredRingXor(s, expected);
  }

  /** Each cell of a ring replaced by the exclusive or of its two ring
      neighbours. */
  function RingXor(s: seq<int>): (n: seq<int>)
    requires |s| > 0
    ensures |n| == |s|
  {
    seq(|s|, i requires 0 <= i < |s| => Xor(Ring(s, i - 1), Ring(s, i + 1)))
  }

  /** A periodic rule-90 step on a binary ring is the ring's exclusive-or
      map. */
  lemma Rule90IsRingXor(s: seq<int>, rule: nat)
    requires rule == 90 && IsBinary(s) && |s| >= 1
    ensures ValidRule(rule, 3)
    ensures Step(s, BuildRuleTable(rule, 3), Periodic, 1) == RingXor(s)
  {
    Rule90Valid(rule);
    var n, x := Step(s, BuildRuleTable(rule, 3), Periodic, 1), RingXor(s);
    assert |n| == |x| == |s|;
    forall i | 0 <= i < |s| ensures n[i] == x[i] {
      Rule90StepIsXor(s, rule, i);
    }
  }

  lemma CentredRingXor(s: seq<int>, expected: seq<int>)
    requires s == [0, 0, 0, 1, 0, 0, 0] && expected == [0, 0, 1, 0, 1, 0, 0]
    ensures RingXor(s) == expected
  {
    forall i | 0 <= i < 7 ensures RingXor(s)[i] == expected[i] {
      if i == 0 {
        ModOfNegative(i - 1, 7);
      } else {
        ModOfSmall(i - 1, 7);
      }
      if i == 6 {
        ModOfLarge(i + 1, 7);
      } else {
        ModOfSmall(i + 1, 7);
      }
    }
  }

  /** Exclusive or of two binary cells. */
  function Xor(a: int, b: int): int
  {
    if a == b then 0 else 1
  }

  /** Cell `j` of a ring, the index taken modulo its length. */
  function Ring(s: seq<int>, j: int): int
    requires |s| > 0
  {
    s[j % |s|]
  }

  lemma Rule90Valid(rule: nat)
    requires rule == 90
    ensures ValidRule(rule, 3)
  {
    assert Pow2(3) == 8;
    assert Pow2(8) == 256;
  }

  /** Rule 90 sets a cell to the exclusive or of its left and right
      neighbours. */
  lemma Rule90IsXor(rule: nat, w: seq<int>, left: int, right: int)
    requires rule == 90
    requires IsBinary(w) && |w| == 3 && w[0] == left && w[2] == right
    ensures ValidRule(rule, 3)
    ensures Lookup(BuildRuleTable(rule, 3), w) == Xor(left, right)
  {
    Rule90Valid(rule);
    ValueOfThree(w);
    LookupBinaryWindow(rule, 3, w);
    Rule90Bits(rule, Value(w));
  }

  /** The eight low bits of 90, read as the outputs of the eight
      configurations `4 * left + 2 * centre + right`. */
  lemma Rule90Bits(rule: nat, v: nat)
    requires rule == 90 && v < 8
    ensures Bit(rule, v) == (if v in {1, 3, 4, 6} then 1 else 0)
  {
    if v == 0 {
      assert Bit(rule, 0) == 0;
    } else if v == 1 {
      assert Bit(rule, 1) == 1;
    } else if v == 2 {
      assert Bit(rule, 2) == 0;
    } else if v == 3 {
      assert Bit(rule, 3) == 1;
    } else if v == 4 {
      assert Bit(rule, 4) == 1;
    } else if v == 5 {
      assert Bit(rule, 5) == 0;
    } else if v == 6 {
      assert Bit(rule, 6) == 1;
    } else {
      assert Bit(rule, 7) == 0;
    }
  }

  /** The periodic window of order 1 around cell `i` of a binary ring: binary,
      with the cell's ring neighbours at its two ends. */
  lemma RingWindow(s: seq<int>, i: nat)
    requires IsBinary(s) && 1 <= |s| && i < |s|
    ensures var w := Pad(s, Periodic, 1)[i..i + 3];
      IsBinary(w) && w[0] == Ring(s, i - 1) && w[2] == Ring(s, i + 1)
  {
    var p := Pad(s, Periodic, 1);
    PadBinary(s, Periodic, 1);
    var w := p[i..i + 3];
    assert w[0] == p[i] && w[2] == p[i + 2];
    PeriodicPadTorus(s, 1, i);
    PeriodicPadTorus(s, 1, i + 2);
    assert IsBinary(w) by {
      forall m | 0 <= m < |w| ensures w[m] == 0 || w[m] == 1 {
        assert w[m] == p[i + m];
      }
    }
  }

  /** The padded rule-90 window of cell `i` of a binary ring maps to the
      exclusive or of the cell's two ring neighbours. */
  lemma Rule90WindowIsXor(s: seq<int>, rule: nat, i: nat)
    requires rule == 90
    requires IsBinary(s) && 1 <= |s| && i < |s|
    ensures ValidRule(rule, 3)
    ensures Lookup(BuildRuleTable(rule, 3), Pad(s, Periodic, 1)[i..i + 3])
      == Xor(Ring(s, i - 1), Ring(s, i + 1))
  {
    RingWindow(s, i);
    Rule90IsXor(rule, Pad(s, Periodic, 1)[i..i + 3], Ring(s, i - 1), Ring(s, i + 1));
  }

  /** One periodic rule-90 step on a binary ring: each cell becomes the
      exclusive or of its two ring neighbours. */
  lemma Rule90StepIsXor(s: seq<int>, rule: nat, i: nat)
    requires rule == 90
    requires IsBinary(s) && 1 <= |s| && i < |s|
    ensures ValidRule(rule, 3)
    ensures Step(s, BuildRuleTable(rule, 3), Periodic, 1)[i] == Xor(Ring(s, i - 1), Ring(s, i + 1))
  {
    Rule90WindowIsXor(s, rule, i);
    StepAt(s, BuildRuleTable(rule, 3), Periodic, 1, i);
  }

  /** A three-cell neighbourhood read as a number. */
  lemma ValueOfThree(w: seq<int>)
    requires |w| == 3 && IsBinary(w)
    ensures Value(w) == 4 * w[0] + 2 * w[1] + w[2]
  {
    var w2, w1 := w[..2], w[..1];
    assert w2[..1] == w1 && w1[..0] == [];
    assert Value(w1) == w[0];
    assert Value(w2) == 2 * w[0] + w[1];
  }

  /** The boundary-condition argument as `f_evolve_WolframCA` reads it:
      `periodic`/`p` in any letter case, or a string containing `fix` or
      `Fix` whose `-`-separated fields 1 and 2 are the left and right values.
      `None` stands for the exceptions the source raises instead. */
  function ParseBoundary(s: string): (r: Option<Boundary>)
    ensures r == Some(Periodic) <==> Lower(s) == "periodic" || Lower(s) == "p"
    ensures (Contains(s, "fix") || Contains(s, "Fix")) && |Split(s, '-')| >= 3
      && IsDigits(Split(s, '-')[1]) && IsDigits(Split(s, '-')[2])
      ==> r == Some(Fixed(ParseDigits(Split(s, '-')[1]), ParseDigits(Split(s, '-')[2])))
    ensures r.Some? && r.value.Fixed? ==>
      (Contains(s, "fix") || Contains(s, "Fix")) && |Split(s, '-')| >= 3 &&
      IsDigits(Split(s, '-')[1]) && IsDigits(Split(s, '-')[2])
    ensures r.Some? && r.value.Fixed? ==> r.value.left >= 0 && r.value.right >= 0
  {
    PeriodicSpellingHasNoFix(s);
    var periodic := Lower(s) == "periodic" || Lower(s) == "p";
    if Contains(s, "fix") || Contains(s, "Fix") then
      var fields := Split(s, '-');
      if |fields| >= 3 && IsDigits(fields[1]) && IsDigits(fields[2])
      then Some(Fixed(ParseDigits(fields[1]), ParseDigits(fields[2])))
      else None
    else if periodic then Some(Periodic)
    else None
  }

  /** No letter-case spelling of `periodic` or `p` contains `fix` or `Fix`,
      so the fixed-boundary test never shadows a periodic spelling. */
  lemma PeriodicSpellingHasNoFix(s: string)
    ensures Lower(s) == "periodic" || Lower(s) == "p" ==> !Contains(s, "fix") && !Contains(s, "Fix")
  {
    if Lower(s) == "periodic" || Lower(s) == "p" {
      forall i | 0 <= i < |s| ensures s[i] != 'f' && s[i] != 'F' {
        assert LowerChar(s[i]) == Lower(s)[i] != 'f';
      }
      ContainsFirst(s, "fix");
      ContainsFirst(s, "Fix");
    }
  }

  /** A separator-free field followed by nothing or by the separator is the
      first field of the split. */
  lemma FirstField(r: string, tail: string)
    requires '-' !in r
    requires tail == [] || tail[0] == '-'
    ensures Split(r + tail, '-')[0] == r
  {
    if tail == [] {
      assert r + tail == r;
      SplitNoSeparator(r, '-');
    } else {
      assert r + tail == r + ['-'] + tail[1..];
      SplitAfterField(r, '-', tail[1..]);
    }
  }

  /** The `-`-separated fields 1 and 2 of `head-l-r` followed by nothing or
      by a further `-`-separated part are `l` and `r`. */
  lemma FieldsOfFixed(head: string, l: string, r: string, tail: string)
    requires '-' !in head && '-' !in l && '-' !in r
    requires tail == [] || tail[0] == '-'
    ensures var fields := Split(head + "-" + l + "-" + r + tail, '-');
      |fields| >= 3 && fields[1] == l && fields[2] == r
  {
    var rest := r + tail;
    var mid := l + ['-'] + rest;
    Regroup(head, l, r, tail);
    SplitAfterField(head, '-', mid);
    SplitAfterField(l, '-', rest);
    FirstField(r, tail);
  }

  lemma Regroup(head: string, l: string, r: string, tail: string)
    ensures head + "-" + l + "-" + r + tail == head + ['-'] + (l + ['-'] + (r + tail))
    ensures head + "-" + l + "-" + r + tail == head + (['-'] + (l + ['-'] + (r + tail)))
  {
  }

  /** Any string with `fix` or `Fix` in its first `-`-separated field, followed
      by two decimal numbers and then nothing or a further `-`-separated part,
      is read as the fixed boundary with those two values. */
  lemma ParseFixedSpelling(head: string, left: nat, right: nat, tail: string)
    requires '-' !in head
    requires Contains(head, "fix") || Contains(head, "Fix")
    requires tail == [] || tail[0] == '-'
    ensures ParseBoundary(head + "-" + ShowNat(left) + "-" + ShowNat(right) + tail)
      == Some(Fixed(left, right))
  {
    FixedSpellingFields(head, left, right, tail);
    ParseFixedFields(head + "-" + ShowNat(left) + "-" + ShowNat(right) + tail, left, right);
  }

  /** The spelling `head-L-R[-…]` passes the fix test and has fields 1 and 2
      spelling `L` and `R`. */
  lemma FixedSpellingFields(head: string, left: nat, right: nat, tail: string)
    requires '-' !in head
    requires Contains(head, "fix") || Contains(head, "Fix")
    requires tail == [] || tail[0] == '-'
    ensures var s := head + "-" + ShowNat(left) + "-" + ShowNat(right) + tail;
      (Contains(s, "fix") || Contains(s, "Fix")) && |Split(s, '-')| >= 3 &&
      Split(s, '-')[1] == ShowNat(left) && Split(s, '-')[2] == ShowNat(right)
  {
    var l, r := ShowNat(left), ShowNat(right);
    assert '-' !in l && '-' !in r;
    FieldsOfFixed(head, l, r, tail);
    Regroup(head, l, r, tail);
    FixInPrefix(head, ['-'] + (l + ['-'] + (r + tail)));
  }

  /** The fix test still succeeds once anything is appended to a string that
      passes it. */
  lemma FixInPrefix(head: string, rest: string)
    requires Contains(head, "fix") || Contains(head, "Fix")
    ensures Contains(head + rest, "fix") || Contains(head + rest, "Fix")
  {
    if Contains(head, "fix") {
      ContainsAppend(head, rest, "fix");
    } else {
      ContainsAppend(head, rest, "Fix");
    }
  }

  /** A fix string whose fields 1 and 2 spell `left` and `right` reads as the
      fixed boundary with those values. */
  lemma ParseFixedFields(s: string, left: nat, right: nat)
    requires Contains(s, "fix") || Contains(s, "Fix")
    requires |Split(s, '-')| >= 3
    requires Split(s, '-')[1] == ShowNat(left) && Split(s, '-')[2] == ShowNat(right)
    ensures ParseBoundary(s) == Some(Fixed(left, right))
  {
    ParseShowNat(left);
    ParseShowNat(right);
  }

  /** The canonical spelling of a boundary condition, `p` or `fix-L-R`. */
  function FormatBoundary(b: Boundary): string
    requires b.Fixed? ==> b.left >= 0 && b.right >= 0
  {
    match b
    case Periodic => "p"
    case Fixed(left, right) => "fix-" + ShowNat(left) + "-" + ShowNat(right)
  }

  /** Every boundary with non-negative fixed values survives a round trip
      through its spelling. */
  lemma ParseFormatBoundary(b: Boundary)
    requires b.Fixed? ==> b.left >= 0 && b.right >= 0
    ensures ParseBoundary(FormatBoundary(b)) == Some(b)
  {
    if b.Fixed? {
      var l, r := ShowNat(b.left), ShowNat(b.right);
      var s := FormatBoundary(b);
      assert s[..3] == "fix";
      assert '-' !in l && '-' !in r;
      assert s == "fix" + ['-'] + (l + ['-'] + r);
      SplitAfterField("fix", '-', l + ['-'] + r);
      SplitAfterField(l, '-', r);
      SplitNoSeparator(r, '-');
      ParseShowNat(b.left);
      ParseShowNat(b.right);
    } else {
      assert Lower("p") == "p";
    }
  }
}

=== FILE: wrappers.dfy ===
/** Failure-carrying result types shared by the cellular-automaton models. */
module Wrappers {

  /** A value that may be absent; `None` stands for a configuration the
      original program rejects by raising an exception. */
  datatype Option<+T> = None | Some(value: T)

  /** A value or the error that the original program would raise instead. */
  datatype Result<+T, +E> = Ok(value: T) | Err(error: E)
}
